=== FILE: README.md ===
# Law Suvidha site: intake chat, testimonials carousel, expertise tabs

This project models the three stateful pieces of the Law Suvidha website in
Dafny and proves properties about them.

- **The intake chat** (`ChatBot`) works from a table of 20 steps,
  `INITIAL_STEPS`. The model covers:
  - the table and the lookup of a step by id;
  - the rule that picks the next step from an answer (a fixed id, or an
    answer-to-id object that falls back to its first value);
  - the chat's React state: `isOpen`, `isMinimized`, `chatHistory`,
    `currentStep`, `userInput`, `userResponses` and `isChatComplete`;
  - the handlers that change that state;
  - the choice of the input shown under the transcript.

  Module `ChatSteps` holds the generic step graph, and `IntakeTable` the
  concrete table. `ChatMachine` holds the state as a value, with one function
  per handler and the invariant those functions keep. `ChatBotController` has
  the component as a class, `ChatBot`: each method is proved to update its
  fields exactly as the matching `ChatMachine` function does, and to keep the
  invariant. `ChatScenarios` follows conversations as the code runs them.
- **The testimonials carousel** (`TestimonialsSection`) covers the wrap-around
  `activeIndex` over four testimonials, the `isTransitioning` guard on the
  arrow buttons, the unguarded indicator buttons, the autoplay flag and the
  five-star rating row. It is modelled as module `Testimonials` with class
  `Carousel`.
- **The expertise tabs** (`ExpertiseSection`) cover `selectedExpertise`,
  rotated every five seconds and set by a click after a 300 ms delay, and the
  `isAnimating` fade. It is modelled as module `Expertise` with class
  `ExpertiseTabs`.

Every `setTimeout` callback is an explicit piece of pending work that a
method runs later:

- the chat's replies and greeting follow-up are a sequence of `Delivery`
  values, run in any order;
- the carousel's 400 ms clears are a count;
- the expertise tabs' 300 ms changes are a queue run oldest first.

No clock is modelled.

The model follows the code wherever a reading of the step table alone differs from it:

- `currentStep` is left at `'intro'` when the chat opens. So the first text
  typed, the name, is stored under `'intro'`, and the `'name'` question is
  asked again (`ChatScenarios.NameFiledUnderIntro`).
- Blank or whitespace-only input is rejected whatever the step's
  `isRequired` says.
- An `'option'` step whose `nextStep` is a string (the `*-q1` follow-ups)
  does not move `currentStep`.
- The `'consent'` step is a message and offers no input of its own
  (`ChatScenarios.ConsentIsDeadEnd`). The `'thank-you'` step follows only an
  answer filed under `'consent'`. That happens only when a stale reply draws
  a text field while `currentStep` is already `'consent'`. For example, on
  the criminal branch the user answers 'criminal-q3' before the reply asking
  it has arrived, and that reply then lands
  (`ChatScenarios.ThankYouReachedThroughStaleReply`). The family, corporate
  and labour branches end the same way, with a '-q2' question and then a
  '-q3' question leading to `'consent'`. So an early answer to any branch's
  '-q3' opens the same way out (`ChatScenarios.StaleReplyEscape` is stated
  for any such pair of questions).

Lines 25 and 160 of `ChatBot.tsx` put an apostrophe inside a single-quoted
string. The model keeps the text those lines evidently mean.

## Model

| member | source | states |
|---|---|---|
| ChatSteps.Find | src/components/ChatBot.tsx:205-207 | the lookup succeeds exactly when some entry has the id, and then returns the first such entry |
| ChatSteps.LookupAnswer | src/components/ChatBot.tsx:225 | `nextStep[answer]` is found exactly when some entry of the object has that key, and is a value declared for it |
| ChatSteps.BranchTarget | src/components/ChatBot.tsx:225 | a non-empty value for the answer is used; a missing or empty one falls back to the first declared value; an empty object gives nothing |
| ChatSteps.ResolveNext | src/components/ChatBot.tsx:218-226 | an absent `nextStep` stops; a non-empty string is used as it is; an object is resolved by the branching rule; the result is always one of the step's declared targets |
| ChatSteps.Reply | src/components/ChatBot.tsx:217-230 | a reply exists exactly when the step is found, its next id resolves, and that id is found; the reply is a table entry with the resolved id |
| ChatSteps.FindEntry | src/components/ChatBot.tsx:205-207 | with unique ids, every entry is found by its own id |
| ChatSteps.TargetsFound | src/components/ChatBot.tsx:229-230 | in a closed table the target lookup never fails |
| ChatSteps.SilentStop | src/components/ChatBot.tsx:217-230 | in a well-formed table no reply is scheduled exactly when the step is unknown or of type 'thank-you' |
| ChatSteps.SilentStopAt | src/components/ChatBot.tsx:217-230 | when the only 'thank-you' step has id `endId`, no reply exactly for unknown ids and for `endId` |
| ChatSteps.OnlyPathTo | src/components/ChatBot.tsx:217-234 | when one step alone names `endId`, the reply is `endId` exactly after an answer at that step |
| IntakeTable.FindStepById | src/components/ChatBot.tsx:205-207 | `findStepById` finds a step exactly for the 20 declared ids, and the step found carries that id |
| IntakeTable.InitialIdsUnique | src/components/ChatBot.tsx:21-168 | no two entries of `INITIAL_STEPS` share an id |
| IntakeTable.IdsAreDeclared | src/components/ChatBot.tsx:21-168 | every entry's id is one of the 20 declared ids |
| IntakeTable.StepIdsDeclared | src/components/ChatBot.tsx:21-168 | every declared id belongs to an entry |
| IntakeTable.TargetsDeclared | src/components/ChatBot.tsx:21-168 | every `nextStep` target, string or object value, is a declared id |
| IntakeTable.InitialStepsClosed | src/components/ChatBot.tsx:21-168 | every `nextStep` target names an existing entry |
| IntakeTable.InitialStepsTruthy | src/components/ChatBot.tsx:21-168 | every `nextStep` present is non-empty, and only 'thank-you' has none |
| IntakeTable.InitialStepsWellFormed | src/components/ChatBot.tsx:21-168 | the table has unique ids, is closed, and its `nextStep`s are truthy |
| IntakeTable.FoundAt | src/components/ChatBot.tsx:205-207 | `findStepById` returns each entry for its own id |
| IntakeTable.IntroGreeting | src/components/ChatBot.tsx:21-36 | 'intro' and 'name' are found, and 'intro' leads to the string 'name' |
| IntakeTable.OnlyThankYouStep | src/components/ChatBot.tsx:163-167 | the only step of type 'thank-you' is the step 'thank-you' |
| IntakeTable.SilentStopOnlyAtThankYou | src/components/ChatBot.tsx:217-230 | with this table, an answer gets no reply exactly when its step id is undeclared or is 'thank-you' |
| IntakeTable.CaseTypeTargets | src/components/ChatBot.tsx:65-75 | at 'case-type', "Corporate Law", "Labour Law" and "Criminal Law" go to their `-q1` steps, and every other answer goes to 'family-q1' |
| IntakeTable.ReplyVia | src/components/ChatBot.tsx:217-230 | when a step resolves an answer to an entry's id, that entry is the reply |
| IntakeTable.CorporateLawBranch | src/components/ChatBot.tsx:69-74 | the reply to "Corporate Law" at 'case-type' is the 'corporate-q1' step |
| IntakeTable.LabourLawBranch | src/components/ChatBot.tsx:69-74 | the reply to "Labour Law" at 'case-type' is the 'labour-q1' step |
| IntakeTable.CriminalLawBranch | src/components/ChatBot.tsx:69-74 | the reply to "Criminal Law" at 'case-type' is the 'criminal-q1' step |
| IntakeTable.OtherAnswersBranch | src/components/ChatBot.tsx:222-226 | any other answer at 'case-type', listed or not, is answered with 'family-q1', the first declared value (for the object's own keys; inherited keys are under Left out) |
| IntakeTable.ThankYouTargetedOnlyByConsent | src/components/ChatBot.tsx:157-167 | 'consent' is the only step naming 'thank-you' |
| IntakeTable.OnlyConsentLeadsToThankYou | src/components/ChatBot.tsx:157-167 | the reply is a 'thank-you' step exactly after an answer at 'consent' |
| ChatMachine.TrimStart | src/components/ChatBot.tsx:245 | the result is a suffix of the input, what was removed is white space, and it does not start with white space |
| ChatMachine.TrimEnd | src/components/ChatBot.tsx:245 | the result is a prefix of the input, what was removed is white space, and it does not end with white space |
| ChatMachine.Trim | src/components/ChatBot.tsx:245 | `trim()` gives a string no longer than its input that neither starts nor ends with white space |
| ChatMachine.TrimKeepsMiddle | src/components/ChatBot.tsx:245 | `trim()` drops only a blank prefix and a blank suffix and keeps the part of the input between them |
| ChatMachine.TrimEmptyIffBlank | src/components/ChatBot.tsx:245 | `trim()` gives the empty string exactly when every character is white space |
| ChatMachine.IntroFollowUp | src/components/ChatBot.tsx:191-197 | the greeting's follow-up, when there is one, is a table entry |
| ChatMachine.GreetingOf | src/components/ChatBot.tsx:191-197 | with unique ids, the greeting is 'intro' followed by the step its string `nextStep` names |
| ChatMachine.EndMessageOfStep | src/components/ChatBot.tsx:237-239 | a step's bot message shows the end exactly when the step is of type 'thank-you' |
| ChatMachine.UserResponded | src/components/ChatBot.tsx:209-241 | an answer appends one user message, stores the answer under `stepId`, and queues at most one reply behind those already waiting, exactly when the step resolves a reply; `currentStep`, the input and the window flags are unchanged (`AnswerRecorded` adds that every other key is untouched, `ReplyDelivered` what the reply does) |
| ChatMachine.AnswerRecorded | src/components/ChatBot.tsx:209-241 | before any lookup, an answer appends exactly one user message and overwrites only its own key; the only other change is one reply scheduled after the pending ones, exactly when there is a reply |
| ChatMachine.TextSubmitted | src/components/ChatBot.tsx:243-256 | blank input, or an unknown `currentStep`, changes nothing; otherwise the input is answered, the field cleared, and `currentStep` moves only to a string `nextStep` |
| ChatMachine.TextAnswered | src/components/ChatBot.tsx:247-254 | text submitted at any step that is found is exactly `handleUserResponse`'s answer to it, with the field cleared; `currentStep` moves only to a string `nextStep` |
| ChatMachine.OptionSelected | src/components/ChatBot.tsx:258-265 | the option is recorded under the step id; `currentStep` changes only for an object `nextStep`, and then becomes the branching rule's target |
| ChatMachine.Seeded | src/components/ChatBot.tsx:189-203 | opening an empty chat shows the 'intro' step and queues its follow-up behind the callbacks already waiting, and changes nothing else; in every other case, or with no 'intro' step, nothing changes |
| ChatMachine.Toggled | src/components/ChatBot.tsx:267-273 | a minimized window is restored and nothing else changes; otherwise `isOpen` flips: closing changes nothing else, and opening is followed by the open effect (`Seeded`) |
| ChatMachine.Minimized | src/components/ChatBot.tsx:275-277 | only `isMinimized` changes, to true |
| ChatMachine.ChatClosed | src/components/ChatBot.tsx:279-289 | the window is closed and un-minimized; a complete chat is reset to an empty one at 'intro'; an incomplete one keeps everything else |
| ChatMachine.InputChanged | src/components/ChatBot.tsx:300 | only `userInput` changes, to the new text |
| ChatMachine.Delivered | src/components/ChatBot.tsx:233-240 | a callback appends its step as a bot message, leaves the queue, and completes the chat exactly for a checked 'thank-you' step |
| ChatMachine.InitialInv | src/components/ChatBot.tsx:171-177 | the initial state satisfies the invariant |
| ChatMachine.UserRespondedInv | src/components/ChatBot.tsx:209-241 | `handleUserResponse` keeps the invariant |
| ChatMachine.TextSubmittedInv | src/components/ChatBot.tsx:243-256 | `handleTextInput` keeps the invariant, so `currentStep` always names a step |
| ChatMachine.OptionSelectedInv | src/components/ChatBot.tsx:258-265 | `handleOptionSelect` keeps the invariant |
| ChatMachine.SeededInv | src/components/ChatBot.tsx:189-203 | the open effect keeps the invariant |
| ChatMachine.ToggledInv | src/components/ChatBot.tsx:267-273 | `toggleChat` keeps the invariant |
| ChatMachine.ChatClosedInv | src/components/ChatBot.tsx:279-289 | `closeChat` keeps the invariant |
| ChatMachine.DeliveredInv | src/components/ChatBot.tsx:233-240 | running a callback keeps the invariant, so the chat is complete exactly when the transcript shows 'thank-you' |
| ChatMachine.ReplyDelivered | src/components/ChatBot.tsx:217-240 | no reply exactly for an unknown or 'thank-you' step; otherwise, once delivered, the transcript gains the answer and the reply only, and completes exactly for a 'thank-you' reply |
| ChatMachine.OptionMovesOnlyOnBranch | src/components/ChatBot.tsx:258-265 | an option at a non-final step schedules its reply; `currentStep` becomes the reply for an object `nextStep` and stays put for a string |
| ChatMachine.InputFor | src/components/ChatBot.tsx:291-365 | no input exactly for 'message' steps and option steps without options; a text field exactly for 'input' and 'question'; the step's own buttons for options; the close button exactly for 'thank-you' |
| ChatMachine.ShownKey | src/components/ChatBot.tsx:447 | the key is the last message's id when that is present and non-empty, and `currentStep` otherwise |
| ChatMachine.ShownStep | src/components/ChatBot.tsx:444-450 | nothing is drawn while the transcript is empty; otherwise the step drawn is the entry found under the `ShownKey` key, or `INITIAL_STEPS[0]` when there is none |
| ChatMachine.ShownStepFound | src/components/ChatBot.tsx:444-450 | under the invariant the fallback to `INITIAL_STEPS[0]` is never taken |
| ChatMachine.VisibleInput | src/components/ChatBot.tsx:444-450 | no input while the transcript is empty; otherwise the input `renderInputForStep` gives for the entry found under the key, or for `INITIAL_STEPS[0]` when there is none |
| ChatMachine.StuckAtMessage | src/components/ChatBot.tsx:291-365 | at a 'message' step no input is offered, and toggling, minimizing or closing neither changes that nor completes the chat |
| ChatBotController.TableUsable | src/components/ChatBot.tsx:21-168 | `INITIAL_STEPS` is well formed, and its greeting is not the end |
| ChatBotController.IntroFollowedByName | src/components/ChatBot.tsx:189-198 | opening shows 'intro' and follows it up with 'name' |
| ChatBotController.ChatBot.constructor | src/components/ChatBot.tsx:171-177 | the component starts closed, empty, at 'intro', and valid |
| ChatBotController.ChatBot.HandleUserResponse | src/components/ChatBot.tsx:209-241 | the fields change exactly as `UserResponded` says, and validity is kept |
| ChatBotController.ChatBot.DeliverPending | src/components/ChatBot.tsx:233-240 | running a callback changes the fields exactly as `Delivered` says |
| ChatBotController.ChatBot.HandleTextInput | src/components/ChatBot.tsx:243-256 | the fields change exactly as `TextSubmitted` says |
| ChatBotController.ChatBot.HandleOptionSelect | src/components/ChatBot.tsx:258-265 | the fields change exactly as `OptionSelected` says |
| ChatBotController.ChatBot.OpenEffect | src/components/ChatBot.tsx:189-203 | the fields change exactly as `Seeded` says |
| ChatBotController.ChatBot.ToggleChat | src/components/ChatBot.tsx:267-273 | the fields change exactly as `Toggled` says |
| ChatBotController.ChatBot.MinimizeChat | src/components/ChatBot.tsx:275-277 | the fields change exactly as `Minimized` says |
| ChatBotController.ChatBot.CloseChat | src/components/ChatBot.tsx:279-289 | the fields change exactly as `ChatClosed` says |
| ChatBotController.ChatBot.SetUserInput | src/components/ChatBot.tsx:300 | the fields change exactly as `InputChanged` says |
| ChatScenarios.GreetingShown | src/components/ChatBot.tsx:189-203 | opening and letting the follow-up arrive shows 'intro' and its follow-up, leaves `currentStep` at 'intro', and offers the follow-up's input |
| ChatScenarios.ReopenedAfterReset | src/components/ChatBot.tsx:189-203 | closing a completed chat and opening it again shows 'intro' afresh at 'intro' with no answers, and queues the follow-up behind the callbacks still waiting from before, which closing does not cancel |
| ChatScenarios.FirstAnswerFiledUnderIntro | src/components/ChatBot.tsx:243-256 | the first text answered after the greeting is stored under 'intro', the follow-up is asked again, and only then does `currentStep` reach it |
| ChatScenarios.AnsweredAtIntro | src/components/ChatBot.tsx:243-256 | the complete state after text is submitted at the greeting |
| ChatScenarios.OpeningGreets | src/components/ChatBot.tsx:189-203 | with `INITIAL_STEPS`, opening shows 'intro' then 'name', and offers the required "Enter your full name" text field |
| ChatScenarios.NameFiledUnderIntro | src/components/ChatBot.tsx:243-256 | with `INITIAL_STEPS`, a typed name is stored under 'intro' and 'name' is asked again |
| ChatScenarios.CriminalLawSelected | src/components/ChatBot.tsx:258-265 | pressing "Criminal Law" at 'case-type' asks 'criminal-q1' and moves `currentStep` there |
| ChatScenarios.FamilyOptionLeavesCurrentStep | src/components/ChatBot.tsx:258-265 | any option at 'family-q1' asks 'family-q2' but leaves `currentStep` as it was |
| ChatScenarios.ConsentIsDeadEnd | src/components/ChatBot.tsx:157-162 | once 'consent' is shown, no input is offered, and no window action changes that or completes the chat |
| ChatScenarios.DeadEndAt | src/components/ChatBot.tsx:291-365 | the same for any 'message' step of any table |
| ChatScenarios.AnswerMoves | src/components/ChatBot.tsx:243-256 | text submitted at a step with a string `nextStep` appends the user message, stores the answer under `currentStep`, queues that step's reply, and moves `currentStep` on |
| ChatScenarios.FieldAfterAnswer | src/components/ChatBot.tsx:444-450 | after a user message the field drawn is that of the question `currentStep` |
| ChatScenarios.FieldAfterQuestion | src/components/ChatBot.tsx:444-450 | after a question's bot message the field drawn is that question's, wherever `currentStep` is |
| ChatScenarios.AnsweredAhead | src/components/ChatBot.tsx:209-256 | answering a question before its own reply has arrived moves `currentStep` on, and the stale reply lands afterwards as the last message |
| ChatScenarios.AnsweredAtConsent | src/components/ChatBot.tsx:209-256 | text submitted while `currentStep` is a message step leading to the end step is filed under it, and the end step's reply completes the chat |
| ChatScenarios.StaleReplyEscape | src/components/ChatBot.tsx:209-256 | two quick answers leave `currentStep` at a message step with a text field drawn again, and the next answer completes the chat |
| ChatScenarios.ThankYouReachedThroughStaleReply | src/components/ChatBot.tsx:136-167 | with `INITIAL_STEPS`, answering 'criminal-q2' and then 'criminal-q3' before its reply arrives leads to an answer stored under 'consent' and a completed chat |
| Testimonials.NextIndex | src/components/TestimonialsSection.tsx:67-71 | the next index stays in range |
| Testimonials.PrevIndex | src/components/TestimonialsSection.tsx:56-60 | the previous index stays in range |
| Testimonials.NextIsSuccessorModLength | src/components/TestimonialsSection.tsx:71 | moving on is adding one modulo the number of testimonials |
| Testimonials.PrevIsPredecessorModLength | src/components/TestimonialsSection.tsx:60 | moving back is subtracting one modulo the number of testimonials |
| Testimonials.PrevUndoesNext | src/components/TestimonialsSection.tsx:56-76 | next then previous, and previous then next, return to the same index |
| Testimonials.Stars | src/components/TestimonialsSection.tsx:116-120 | five stars, star `k` filled exactly when `k < rating` |
| Testimonials.FilledStarsAreRating | src/components/TestimonialsSection.tsx:116-120 | the number of filled stars is the rating clamped to 0..5 |
| Testimonials.ListedRatings | src/components/TestimonialsSection.tsx:6-39 | there are four testimonials; the first shows five filled stars and the third four |
| Testimonials.Carousel.constructor | src/components/TestimonialsSection.tsx:42-44 | the carousel starts at index 0, autoplaying, not transitioning |
| Testimonials.Carousel.GoToPrevSlide | src/components/TestimonialsSection.tsx:56-65 | ignored while transitioning; otherwise moves back with wrap-around and starts a transition with a clear pending |
| Testimonials.Carousel.GoToNextSlide | src/components/TestimonialsSection.tsx:67-76 | ignored while transitioning; otherwise moves on with wrap-around and starts a transition with a clear pending |
| Testimonials.Carousel.SelectIndicator | src/components/TestimonialsSection.tsx:171-177 | jumps to the clicked index even while transitioning, and starts a transition |
| Testimonials.Carousel.EndTransition | src/components/TestimonialsSection.tsx:62-64 | a 400 ms callback clears the transition and changes nothing else |
| Testimonials.Carousel.PauseAutoplay | src/components/TestimonialsSection.tsx:78-80 | autoplay is switched off and nothing else changes |
| Testimonials.Carousel.ResumeAutoplay | src/components/TestimonialsSection.tsx:82-84 | autoplay is switched on and nothing else changes |
| Testimonials.Carousel.AutoplayTick | src/components/TestimonialsSection.tsx:46-54 | a tick moves on only while autoplay is on and no transition runs |
| Testimonials.NextThenPrev | src/components/TestimonialsSection.tsx:56-76 | next, the clear, then previous show the starting testimonial again |
| Testimonials.DoubleNextMovesOnce | src/components/TestimonialsSection.tsx:67-76 | two quick presses of next move one testimonial only |
| Testimonials.PausedAutoplayHolds | src/components/TestimonialsSection.tsx:46-54 | while paused, autoplay ticks leave the index where it is |
| Expertise.Apply | src/components/ExpertiseSection.tsx:40-82 | a deferred change keeps the index in range, and a click's change selects the clicked tab |
| Expertise.Settle | src/components/ExpertiseSection.tsx:40-82 | running any queue of in-range changes keeps the index in range |
| Expertise.RotationsAdd | src/components/ExpertiseSection.tsx:44 | `n` rotations move the selection `n` tabs on, modulo the number of tabs |
| Expertise.FullCycle | src/components/ExpertiseSection.tsx:44 | `expertiseAreas.length` rotations return to the starting tab |
| Expertise.LastClickWins | src/components/ExpertiseSection.tsx:77-82 | after a click, the selection ends on the clicked tab moved on by the rotations queued after it, whatever was queued before |
| Expertise.Highlights | src/components/ExpertiseSection.tsx:71-73 | a tab is highlighted exactly when it is the selected one |
| Expertise.OneTabHighlighted | src/components/ExpertiseSection.tsx:71-73 | exactly one tab is highlighted |
| Expertise.ExpertiseTabs.constructor | src/components/ExpertiseSection.tsx:37-38 | the tabs start at 0, not animating, nothing queued |
| Expertise.ExpertiseTabs.IntervalTick | src/components/ExpertiseSection.tsx:40-50 | a tick fades the panel out and queues one rotation; the selection is unchanged until it runs |
| Expertise.ExpertiseTabs.SelectTab | src/components/ExpertiseSection.tsx:77-82 | a click fades the panel out and queues the jump to its tab |
| Expertise.ExpertiseTabs.ApplyDeferred | src/components/ExpertiseSection.tsx:43-46 | the oldest callback applies its change and fades the panel in, even when others still wait |
| Expertise.ExpertiseTabs.ApplyAll | src/components/ExpertiseSection.tsx:43-46 | running every waiting callback ends on the queue's settled index, with the panel visible |
| Expertise.ExpertiseTabs.ShownArea | src/components/ExpertiseSection.tsx:107-111 | the panel reads an entry of `expertiseAreas`: the read is in bounds |
| Expertise.FourTicksReturn | src/components/ExpertiseSection.tsx:40-50 | four ticks, each followed by its callback, return to the starting tab |
| Expertise.ClickDuringRotation | src/components/ExpertiseSection.tsx:40-82 | a click during a rotation: the rotation lands first and `isAnimating` is cleared before the click lands |

## Left out

- Rendering is not modelled: JSX markup, the class strings, icons, image `onError` fallbacks, `scrollIntoView` and the FAQ button. These are presentation and DOM effects. Two class choices are modelled because they show state: which stars are filled (`Testimonials.Stars`) and which tab is highlighted (`Expertise.Highlights`).
- The real timing of `setTimeout` and `setInterval` is not modelled. Each callback is an explicit method call, and the chat's callbacks may run in any order.
- `Testimonials.Carousel.AutoplayTick` does not model the interval's stale closure. The interval is re-created whenever `activeIndex` or `isAutoplay` changes, and its callback reads the `isTransitioning` of the render that created it. Every index change is made together with `isTransitioning = true`, so the interval re-created after it sees a transition forever, even after the 400 ms clear. So in the component autoplay advances once after mounting, or after the pointer leaves, and then stalls until the pointer enters and leaves again. The model advances on every tick while autoplay is on and no transition runs. React's batching and the exact 5 s cadence are not modelled either.
- The expertise interval never stops while the component is mounted. The model has no unmount.
- `ChatSteps.LookupAnswer` does not model JavaScript property lookup on plain objects. Inherited keys such as "constructor" would resolve to a function there, and the model does not show this.
- `ChatSteps.BranchTarget` takes an object's first value in declaration order. JavaScript lists integer-like keys first; no key in the table is integer-like.
- `ChatMachine.OptionSelected`: an object `nextStep` with no entries would set `currentStep` to `undefined` in the code. The model leaves `currentStep` unchanged there. No step in the table has such an object.
- `ChatMachine.TextSubmitted`: the case where `currentStep` names no step is modelled as a no-op, as in the code. The invariant proves it cannot arise.
- The browser's own constraint validation of the text field is left out: the `required` check, which the trim check covers anyway, and the `type="email"` format check on the 'email' step (`ChatBot.tsx:49`, drawn with `type={step.inputType || 'text'}` at line 296). So `ChatMachine.TextSubmitted` accepts "abc" at 'email', which the browser would block.
- `ChatStep` objects with duplicate keys are left out, because a TypeScript object literal cannot hold them.
- The header scroll listener, the anchor smooth-scroll handler, and the footer, hero, services and not-found pages are not modelled. They are static presentation or DOM handlers.
- The testimonials' quotes and portraits, and the expertise areas' descriptions and icons, are not part of the model. Only the fields the logic reads are kept.

=== FILE: bools.dfy ===
/** Counting over sequences of flags, shared by the star row and the tab highlights. */
module Bools {

  /** The number of `true` entries. */
  function CountTrue(bs: seq<bool>): nat {
    if bs == [] then 0 else (if bs[0] then 1 else 0) + CountTrue(bs[1..])
  }
}

=== FILE: chat_bot.dfy ===
/**
 * The `ChatBot` component as an object: its React state as fields, its
 * handlers as methods, and each `setTimeout` callback as an entry of
 * `pending` that `DeliverPending` runs. Every method is proved to take the
 * state exactly as the matching function of module ChatMachine does, and to
 * keep the invariant `Valid`.
 */
module ChatBotController {
  import opened Wrappers
  import opened ChatSteps
  import opened ChatMachine
  import IntakeTable

  /** `INITIAL_STEPS` is a table the chat can run on. */
  lemma TableUsable()
    ensures Usable(IntakeTable.Steps)
  {
    IntakeTable.InitialStepsWellFormed();
    IntroFollowedByName();
  }

  /** Opening shows the 'intro' step and follows it up with 'name'. */
  lemma IntroFollowedByName()
    ensures Find(IntakeTable.Steps, "intro") == Some(IntakeTable.IntroStep)
    ensures IntroFollowUp(IntakeTable.Steps) == Some(IntakeTable.NameStep)
    ensures Find(IntakeTable.Steps, "name") == Some(IntakeTable.NameStep)
  {
    IntakeTable.InitialIdsUnique();
    IntakeTable.OpeningRows();
    GreetingOf(IntakeTable.Steps, IntakeTable.IntroStep, IntakeTable.NameStep);
  }

  class ChatBot {
    /** `INITIAL_STEPS`. */
    const steps: seq<ChatStep>
    var isOpen: bool
    var isMinimized: bool
    var chatHistory: seq<ChatMessage>
    var currentStep: string
    var userInput: string
    var userResponses: map<string, string>
    var isChatComplete: bool
    /** The callbacks scheduled with `setTimeout` that have not run yet. */
    var pending: seq<Delivery>

    function State(): ChatState
      reads this
    {
      ChatState(isOpen, isMinimized, chatHistory, currentStep, userInput, userResponses, isChatComplete, pending)
    }

    ghost predicate Valid()
      reads this
    {
      Usable(steps) && Inv(steps, State())
    }

    constructor()
      ensures Valid() && steps == IntakeTable.Steps && State() == Initial
    {
      steps := IntakeTable.Steps;
      isOpen := false;
      isMinimized := false;
      chatHistory := [];
      currentStep := "intro";
      userInput := "";
      userResponses := map[];
      isChatComplete := false;
      pending := [];
      new;
      TableUsable();
      InitialInv(steps);
    }

    /**
     * `handleUserResponse(response, stepId)`: the answer is appended and
     * stored under `stepId`; the reply, when the step, its `nextStep` and the
     * target are all there, is scheduled.
     */
    method HandleUserResponse(response: string, stepId: string)
      requires Valid()
      modifies this
      ensures Valid() && State() == UserResponded(steps, old(State()), response, stepId)
    {
      ghost var before := State();
      UserRespondedInv(steps, before, response, stepId);
      chatHistory := chatHistory + [UserMessage(response)];
      userResponses := userResponses[stepId := response];
      var reply: seq<Delivery> := [];
      var step := Find(steps, stepId);
      if step.Some? {
        var nextStepId := ResolveNext(step.value, response);
        if nextStepId.Some? {
          var nextStep := Find(steps, nextStepId.value);
          if nextStep.Some? {
            reply := [Delivery(nextStep.value, true)];
          }
        }
      }
      assert reply == Scheduled(Reply(steps, stepId, response));
      pending := pending + reply;
    }

    /** A scheduled callback runs: the bot message is shown, and a 'thank-you' reply completes the chat. */
    method DeliverPending(k: nat)
      requires Valid() && k < |pending|
      modifies this
      ensures Valid() && State() == Delivered(old(State()), k)
    {
      DeliveredInv(steps, State(), k);
      var d := pending[k];
      pending := pending[..k] + pending[k + 1..];
      chatHistory := chatHistory + [BotMessage(d.step)];
      if d.checksCompletion && d.step.kind == ThankYou {
        isChatComplete := true;
      }
    }

    /** `handleTextInput`: the typed text answers `currentStep`. */
    method HandleTextInput()
      requires Valid()
      modifies this
      ensures Valid() && State() == TextSubmitted(steps, old(State()))
    {
      TextSubmittedInv(steps, State());
      if Trim(userInput) == "" {
        return;
      }
      // `Valid` keeps `currentStep` in the table, so the lookup finds it.
      var step := Find(steps, currentStep).value;
      HandleUserResponse(userInput, currentStep);
      userInput := "";
      if step.next.Fixed? {
        currentStep := step.next.id;
      }
    }

    /** `handleOptionSelect(option, stepId)`: a button of step `stepId` was pressed. */
    method HandleOptionSelect(option: string, stepId: string)
      requires Valid()
      modifies this
      ensures Valid() && State() == OptionSelected(steps, old(State()), option, stepId)
    {
      OptionSelectedInv(steps, State(), option, stepId);
      HandleUserResponse(option, stepId);
      var step := Find(steps, stepId);
      if step.Some? && step.value.next.Branch? && step.value.next.entries != [] {
        currentStep := BranchTarget(step.value.next.entries, option).value;
      }
    }

    /** The effect on `isOpen`: an opened, empty chat shows 'intro' and schedules its follow-up. */
    method OpenEffect()
      requires Valid()
      modifies this
      ensures Valid() && State() == Seeded(steps, old(State()))
    {
      SeededInv(steps, State());
      if isOpen && chatHistory == [] {
        // `Valid` keeps 'intro' in the table.
        var intro := Find(steps, "intro").value;
        chatHistory := [BotMessage(intro)];
        if intro.next.Fixed? {
          var follow := Find(steps, intro.next.id);
          if follow.Some? {
            pending := pending + [Delivery(follow.value, false)];
          }
        }
      }
    }

    method ToggleChat()
      requires Valid()
      modifies this
      ensures Valid() && State() == Toggled(steps, old(State()))
    {
      if isMinimized {
        isMinimized := false;
      } else {
        isOpen := !isOpen;
        OpenEffect();
      }
    }

    method MinimizeChat()
      requires Valid()
      modifies this
      ensures Valid() && State() == Minimized(old(State()))
    {
      isMinimized := true;
    }

    method CloseChat()
      requires Valid()
      modifies this
      ensures Valid() && State() == ChatClosed(old(State()))
    {
      ChatClosedInv(steps, State());
      isOpen := false;
      isMinimized := false;
      if isChatComplete {
        chatHistory := [];
        userResponses := map[];
        currentStep := "intro";
        isChatComplete := false;
      }
    }

    /** The text field's `onChange`. */
    method SetUserInput(text: string)
      requires Valid()
      modifies this
      ensures Valid() && State() == InputChanged(old(State()), text)
    {
      userInput := text;
    }
  }
}

=== FILE: chat_machine.dfy ===
/**
 * The state of the intake chat and its transitions, as values: the React
 * state of `ChatBot` (`isOpen`, `isMinimized`, `chatHistory`, `currentStep`,
 * `userInput`, `userResponses`, `isChatComplete`), the `setTimeout` callbacks
 * still to run, and one function per handler. The `ChatBot` class of module
 * ChatBotController is proved against these functions.
 */
module ChatMachine {
  import opened Wrappers
  import opened ChatSteps

  // ---------------------------------------------------------------------------
  // Transcript

  datatype Role = Bot | User

  /** An entry of `chatHistory`; only bot entries carry the id of their step. */
  datatype ChatMessage = ChatMessage(role: Role, content: string, id: Option<string>)

  function BotMessage(step: ChatStep): ChatMessage {
    ChatMessage(Bot, step.content, Some(step.id))
  }

  function UserMessage(text: string): ChatMessage {
    ChatMessage(User, text, None)
  }

  /**
   * A `setTimeout` callback that has not run yet: it appends `step` as a bot
   * message and, when `checksCompletion` holds (the reply scheduled by
   * `handleUserResponse`, not the greeting scheduled on opening), marks the
   * chat complete if `step` is of type 'thank-you'.
   */
  datatype Delivery = Delivery(step: ChatStep, checksCompletion: bool)

  datatype ChatState = ChatState(
    isOpen: bool,
    isMinimized: bool,
    chatHistory: seq<ChatMessage>,
    currentStep: string,
    userInput: string,
    userResponses: map<string, string>,
    isChatComplete: bool,
    pending: seq<Delivery>)

  /** The state on mounting: closed, empty, at 'intro'. */
  const Initial: ChatState := ChatState(false, false, [], "intro", "", map[], false, [])

  // ---------------------------------------------------------------------------
  // `String.prototype.trim`

  /** The characters `trim` removes: ECMAScript white space and line terminators. */
  predicate IsWhiteSpace(c: char) {
    || c == '\t' || c == '\n' || c == '\U{000B}' || c == '\U{000C}' || c == '\r' || c == ' '
    || c == '\U{00A0}' || c == '\U{1680}' || ('\U{2000}' <= c <= '\U{200A}')
    || c == '\U{2028}' || c == '\U{2029}' || c == '\U{202F}' || c == '\U{205F}'
    || c == '\U{3000}' || c == '\U{FEFF}'
  }

  ghost predicate IsBlank(s: string) {
    forall i :: 0 <= i < |s| ==> IsWhiteSpace(s[i])
  }

  /** `s` without its leading white space. */
  function TrimStart(s: string): (r: string)
    ensures |r| <= |s| && r == s[|s| - |r|..]
    ensures IsBlank(s[..|s| - |r|])
    ensures r != [] ==> !IsWhiteSpace(r[0])
  {
    if s != [] && IsWhiteSpace(s[0]) then
      var r := TrimStart(s[1..]);
      assert s[..|s| - |r|] == [s[0]] + s[1..][..|s| - 1 - |r|];
      r
    else s
  }

  /** `s` without its trailing white space. */
  function TrimEnd(s: string): (r: string)
    ensures |r| <= |s| && r == s[..|r|]
    ensures IsBlank(s[|r|..])
    ensures r != [] ==> !IsWhiteSpace(r[|r| - 1])
  {
    if s != [] && IsWhiteSpace(s[|s| - 1]) then
      var r := TrimEnd(s[..|s| - 1]);
      assert s[|r|..] == s[..|s| - 1][|r|..] + [s[|s| - 1]];
      r
    else s
  }

  /**
   * `s.trim()`: what is left is no longer than `s` and starts and ends with a
   * character that is not white space (`TrimKeepsMiddle` says which part of
   * `s` it is).
   */
  function Trim(s: string): (r: string)
    ensures |r| <= |s|
    ensures r != [] ==> !IsWhiteSpace(r[0]) && !IsWhiteSpace(r[|r| - 1])
  {
    TrimEnd(TrimStart(s))
  }

  /**
   * `trim` drops only a blank prefix and a blank suffix: the result is the
   * part of `s` between them.
   */
  lemma {:induction false} TrimKeepsMiddle(s: string)
    ensures var k := |s| - |TrimStart(s)|;
            && k + |Trim(s)| <= |s| && Trim(s) == s[k..k + |Trim(s)|]
            && IsBlank(s[..k]) && IsBlank(s[k + |Trim(s)|..])
  {
    BlankEnds(s, TrimStart(s), Trim(s));
  }

  /** A blank prefix cut off `s` gives `t`, and a blank suffix cut off `t` gives `r`. */
  lemma BlankEnds(s: string, t: string, r: string)
    requires |t| <= |s| && t == s[|s| - |t|..] && IsBlank(s[..|s| - |t|])
    requires |r| <= |t| && r == t[..|r|] && IsBlank(t[|r|..])
    ensures var k := |s| - |t|; r == s[k..k + |r|] && IsBlank(s[k + |r|..])
  {
    var k := |s| - |t|;
    assert t[|r|..] == s[k + |r|..];
  }

  /** `!s.trim()`: trimming leaves nothing exactly when every character is white space. */
  lemma TrimEmptyIffBlank(s: string)
    ensures Trim(s) == "" <==> IsBlank(s)
  {
    var t := TrimStart(s);
    assert s[..|s| - 0] == s;
  }

  // ---------------------------------------------------------------------------
  // Which tables the chat can run on, and the invariant of its state

  /**
   * The step the opening greeting follows up with: the step named by the
   * 'intro' step's `nextStep` read as a string (`as string`), if the table
   * has one.
   */
  function IntroFollowUp(steps: seq<ChatStep>): (r: Option<ChatStep>)
    ensures r.Some? ==> r.value in steps
  {
    match Find(steps, "intro")
    case None => None
    case Some(intro) =>
      match intro.next
      case Fixed(id) => Find(steps, id)
      case _ => None
  }

  /** The greeting read off a table with unique ids: 'intro' and the step its string `nextStep` names. */
  lemma GreetingOf(steps: seq<ChatStep>, intro: ChatStep, follow: ChatStep)
    requires UniqueIds(steps) && intro in steps && follow in steps
    requires intro.id == "intro" && intro.next == Fixed(follow.id)
    ensures Find(steps, "intro") == Some(intro)
    ensures IntroFollowUp(steps) == Some(follow) && Find(steps, follow.id) == Some(follow)
  {
    FindEntry(steps, intro);
    FindEntry(steps, follow);
  }

  /**
   * A table the chat runs on: well formed, with an 'intro' step that is not
   * of type 'thank-you' and that does not open with the 'thank-you' step
   * (the greeting is shown without the completion check).
   */
  ghost predicate Usable(steps: seq<ChatStep>) {
    && WellFormedGraph(steps)
    && Find(steps, "intro").Some?
    && Find(steps, "intro").value.kind != ThankYou
    && (IntroFollowUp(steps).Some? ==> IntroFollowUp(steps).value.kind != ThankYou)
  }

  /** A transcript entry the handlers can produce: a table step's bot message, or a user message. */
  ghost predicate FromGraph(steps: seq<ChatStep>, m: ChatMessage) {
    || (m.role == Bot && exists i :: 0 <= i < |steps| && m == BotMessage(steps[i]))
    || (m.role == User && m.id.None?)
  }

  /** A bot message showing a step of type 'thank-you'. */
  ghost predicate IsEndMessage(steps: seq<ChatStep>, m: ChatMessage) {
    m.role == Bot && m.id.Some? &&
    exists i :: 0 <= i < |steps| && steps[i].id == m.id.value && steps[i].kind == ThankYou
  }

  ghost predicate ShowsEnd(steps: seq<ChatStep>, history: seq<ChatMessage>) {
    exists k :: 0 <= k < |history| && IsEndMessage(steps, history[k])
  }

  /** A callback the handlers schedule: a table step, and only a checked one may be 'thank-you'. */
  ghost predicate Schedulable(steps: seq<ChatStep>, d: Delivery) {
    d.step in steps && (d.checksCompletion || d.step.kind != ThankYou)
  }

  ghost predicate HistoryFromGraph(steps: seq<ChatStep>, history: seq<ChatMessage>) {
    forall k :: 0 <= k < |history| ==> FromGraph(steps, history[k])
  }

  ghost predicate AllSchedulable(steps: seq<ChatStep>, pending: seq<Delivery>) {
    forall k :: 0 <= k < |pending| ==> Schedulable(steps, pending[k])
  }

  lemma HistoryAppend(steps: seq<ChatStep>, history: seq<ChatMessage>, m: ChatMessage)
    requires HistoryFromGraph(steps, history) && FromGraph(steps, m)
    ensures HistoryFromGraph(steps, history + [m])
  {
    var h := history + [m];
    forall k | 0 <= k < |h| ensures FromGraph(steps, h[k]) {
      if k < |history| {
        assert h[k] == history[k];
      }
    }
  }

  lemma ScheduleAppend(steps: seq<ChatStep>, pending: seq<Delivery>, more: seq<Delivery>)
    requires AllSchedulable(steps, pending) && AllSchedulable(steps, more)
    ensures AllSchedulable(steps, pending + more)
  {
    var p := pending + more;
    forall k | 0 <= k < |p| ensures Schedulable(steps, p[k]) {
      if k < |pending| {
        assert p[k] == pending[k];
      } else {
        assert p[k] == more[k - |pending|];
      }
    }
  }

  lemma ScheduleRemove(steps: seq<ChatStep>, pending: seq<Delivery>, k: nat)
    requires AllSchedulable(steps, pending) && k < |pending|
    ensures AllSchedulable(steps, pending[..k] + pending[k + 1..])
  {
    var p := pending[..k] + pending[k + 1..];
    forall j | 0 <= j < |p| ensures Schedulable(steps, p[j]) {
      if j < k {
        assert p[j] == pending[j];
      } else {
        assert p[j] == pending[j + 1];
      }
    }
  }

  /**
   * The invariant of the chat state: `currentStep` names a step, every
   * transcript entry and pending callback comes from the table, and the chat
   * is complete exactly when the transcript shows the 'thank-you' step.
   */
  ghost predicate Inv(steps: seq<ChatStep>, s: ChatState) {
    && Find(steps, s.currentStep).Some?
    && HistoryFromGraph(steps, s.chatHistory)
    && AllSchedulable(steps, s.pending)
    && (s.isChatComplete <==> ShowsEnd(steps, s.chatHistory))
  }

  /** With unique ids, a step's bot message shows the end exactly when the step is of type 'thank-you'. */
  lemma EndMessageOfStep(steps: seq<ChatStep>, step: ChatStep)
    requires UniqueIds(steps) && step in steps
    ensures IsEndMessage(steps, BotMessage(step)) <==> step.kind == ThankYou
  {
    var j :| 0 <= j < |steps| && steps[j] == step;
    if IsEndMessage(steps, BotMessage(step)) {
      var i :| 0 <= i < |steps| && steps[i].id == step.id && steps[i].kind == ThankYou;
    }
  }

  lemma ShowsEndAppend(steps: seq<ChatStep>, history: seq<ChatMessage>, m: ChatMessage)
    ensures ShowsEnd(steps, history + [m]) <==> ShowsEnd(steps, history) || IsEndMessage(steps, m)
  {
    var h := history + [m];
    if ShowsEnd(steps, h) {
      var k :| 0 <= k < |h| && IsEndMessage(steps, h[k]);
      if k < |history| {
        assert h[k] == history[k];
      }
    }
    if ShowsEnd(steps, history) {
      var k :| 0 <= k < |history| && IsEndMessage(steps, history[k]);
      assert h[k] == history[k];
    }
    if IsEndMessage(steps, m) {
      assert h[|history|] == m;
    }
  }

  // ---------------------------------------------------------------------------
  // Handlers

  /** The callback `handleUserResponse` schedules for a reply, if any. */
  function Scheduled(reply: Option<ChatStep>): seq<Delivery> {
    match reply
    case None => []
    case Some(step) => [Delivery(step, true)]
  }

  /**
   * `handleUserResponse(response, stepId)`: record the answer in the
   * transcript and under `stepId`, then schedule the reply, if any.
   */
  function UserResponded(steps: seq<ChatStep>, s: ChatState, response: string, stepId: string): (t: ChatState)
    ensures t.chatHistory == s.chatHistory + [UserMessage(response)]
    ensures stepId in t.userResponses && t.userResponses[stepId] == response
    ensures |s.pending| <= |t.pending| <= |s.pending| + 1 && t.pending[..|s.pending|] == s.pending
    ensures |t.pending| == |s.pending| + 1 <==> Reply(steps, stepId, response).Some?
    ensures t.currentStep == s.currentStep && t.userInput == s.userInput && t.isChatComplete == s.isChatComplete
    ensures t.isOpen == s.isOpen && t.isMinimized == s.isMinimized
  {
    s.(chatHistory := s.chatHistory + [UserMessage(response)],
       userResponses := s.userResponses[stepId := response],
       pending := s.pending + Scheduled(Reply(steps, stepId, response)))
  }

  /**
   * Whatever the lookups give, an answer appends exactly one user message and
   * stores the answer under `stepId`, leaving every other key as it was; the
   * only other change is the reply scheduled after the callbacks already
   * pending, one exactly when `Reply` finds one.
   */
  lemma AnswerRecorded(steps: seq<ChatStep>, s: ChatState, response: string, stepId: string)
    ensures var t := UserResponded(steps, s, response, stepId);
            && t.chatHistory == s.chatHistory + [UserMessage(response)]
            && stepId in t.userResponses && t.userResponses[stepId] == response
            && (forall k :: k != stepId ==>
                  (k in t.userResponses <==> k in s.userResponses) &&
                  (k in s.userResponses ==> t.userResponses[k] == s.userResponses[k]))
            && |s.pending| <= |t.pending| && t.pending[..|s.pending|] == s.pending
            && (|t.pending| == |s.pending| <==> Reply(steps, stepId, response).None?)
            && (|t.pending| != |s.pending| ==>
                  t.pending[|s.pending|..] == [Delivery(Reply(steps, stepId, response).value, true)])
            && t.(chatHistory := s.chatHistory, userResponses := s.userResponses, pending := s.pending) == s
  {
    var t := UserResponded(steps, s, response, stepId);
    assert t.pending[..|s.pending|] == s.pending;
  }

  /**
   * `handleTextInput`: blank input does nothing; otherwise the input is the
   * answer to `currentStep`, the field is cleared, and `currentStep` moves to
   * the step's `nextStep` only when that is a string.
   */
  function TextSubmitted(steps: seq<ChatStep>, s: ChatState): (t: ChatState)
    ensures Trim(s.userInput) == "" || Find(steps, s.currentStep).None? ==> t == s
    ensures Trim(s.userInput) != "" && Find(steps, s.currentStep).Some? ==>
              var step := Find(steps, s.currentStep).value;
              && t.chatHistory == s.chatHistory + [UserMessage(s.userInput)]
              && t.userResponses == s.userResponses[s.currentStep := s.userInput]
              && t.userInput == ""
              && t.currentStep == (if step.next.Fixed? then step.next.id else s.currentStep)
  {
    if Trim(s.userInput) == "" then s
    else
      match Find(steps, s.currentStep)
      case None => s
      case Some(step) =>
        var t := UserResponded(steps, s, s.userInput, s.currentStep).(userInput := "");
        if step.next.Fixed? then t.(currentStep := step.next.id) else t
  }

  /**
   * Text submitted at a step that is found is `handleUserResponse`'s answer
   * to it, with the field cleared; `currentStep` moves on only to a string
   * `nextStep`.
   */
  lemma TextAnswered(steps: seq<ChatStep>, s: ChatState, step: ChatStep)
    requires Trim(s.userInput) != "" && Find(steps, s.currentStep) == Some(step)
    ensures TextSubmitted(steps, s) ==
              UserResponded(steps, s, s.userInput, s.currentStep).(
                userInput := "", currentStep := if step.next.Fixed? then step.next.id else s.currentStep)
  {
  }

  /**
   * `handleOptionSelect(option, stepId)`: the option is the answer to
   * `stepId`; `currentStep` moves only when that step's `nextStep` is an
   * object, to the entry for `option` or else the first entry.
   */
  function OptionSelected(steps: seq<ChatStep>, s: ChatState, option: string, stepId: string): (t: ChatState)
    ensures t.chatHistory == s.chatHistory + [UserMessage(option)]
    ensures t.userResponses == s.userResponses[stepId := option]
    ensures t.currentStep != s.currentStep ==>
              Find(steps, stepId).Some? && Find(steps, stepId).value.next.Branch?
    ensures Find(steps, stepId).Some? && Find(steps, stepId).value.next.Branch? &&
            Find(steps, stepId).value.next.entries != [] ==>
              Some(t.currentStep) == ResolveNext(Find(steps, stepId).value, option)
  {
    var t := UserResponded(steps, s, option, stepId);
    match Find(steps, stepId)
    case None => t
    case Some(step) =>
      if step.next.Branch? && step.next.entries != [] then
        t.(currentStep := BranchTarget(step.next.entries, option).value)
      else t
  }

  /**
   * The effect that runs when `isOpen` changes: on opening with an empty
   * transcript, show the 'intro' step and schedule its follow-up.
   */
  function Seeded(steps: seq<ChatStep>, s: ChatState): (t: ChatState)
    ensures s.isOpen && s.chatHistory == [] && Find(steps, "intro").Some? ==>
              t == s.(chatHistory := [BotMessage(Find(steps, "intro").value)],
                      pending := s.pending + (if IntroFollowUp(steps).Some? then [Delivery(IntroFollowUp(steps).value, false)] else []))
    ensures Find(steps, "intro").None? || !(s.isOpen && s.chatHistory == []) ==> t == s
    ensures t.currentStep == s.currentStep && t.isChatComplete == s.isChatComplete
  {
    if s.isOpen && s.chatHistory == [] then
      match Find(steps, "intro")
      case None => s
      case Some(intro) =>
        var greeting := match IntroFollowUp(steps)
          case None => []
          case Some(step) => [Delivery(step, false)];
        s.(chatHistory := [BotMessage(intro)], pending := s.pending + greeting)
    else s
  }

  /** `toggleChat`: restore a minimized window, or else open or close it (and run the effect). */
  function Toggled(steps: seq<ChatStep>, s: ChatState): (t: ChatState)
    ensures s.isMinimized ==> t == s.(isMinimized := false)
    ensures !s.isMinimized ==> t.isOpen == !s.isOpen && !t.isMinimized
    ensures !s.isMinimized && s.isOpen ==> t == s.(isOpen := false)
    ensures !s.isMinimized && !s.isOpen ==> t == Seeded(steps, s.(isOpen := true))
  {
    if s.isMinimized then s.(isMinimized := false)
    else Seeded(steps, s.(isOpen := !s.isOpen))
  }

  function Minimized(s: ChatState): (t: ChatState)
    ensures t.isMinimized && t.(isMinimized := s.isMinimized) == s
  {
    s.(isMinimized := true)
  }

  /**
   * `closeChat`: close and un-minimize; a complete chat is also reset to a
   * fresh one at 'intro'. Callbacks already scheduled are not cancelled.
   */
  function ChatClosed(s: ChatState): (t: ChatState)
    ensures !t.isOpen && !t.isMinimized && !t.isChatComplete
    ensures t.pending == s.pending && t.userInput == s.userInput
    ensures s.isChatComplete ==> t.chatHistory == [] && t.userResponses == map[] && t.currentStep == "intro"
    ensures !s.isChatComplete ==> t == s.(isOpen := false, isMinimized := false)
  {
    var t := s.(isOpen := false, isMinimized := false);
    if s.isChatComplete then
      t.(chatHistory := [], userResponses := map[], currentStep := "intro", isChatComplete := false)
    else t
  }

  /** The `onChange` of the text field. */
  function InputChanged(s: ChatState, text: string): (t: ChatState)
    ensures t.userInput == text && t.(userInput := s.userInput) == s
  {
    s.(userInput := text)
  }

  /**
   * The `k`-th scheduled callback runs: its step is appended as a bot
   * message, and a reply of type 'thank-you' completes the chat.
   */
  function Delivered(s: ChatState, k: nat): (t: ChatState)
    requires k < |s.pending|
    ensures t.chatHistory == s.chatHistory + [BotMessage(s.pending[k].step)]
    ensures t.pending == s.pending[..k] + s.pending[k + 1..]
    ensures t.isChatComplete <==>
              s.isChatComplete || (s.pending[k].checksCompletion && s.pending[k].step.kind == ThankYou)
  {
    var d := s.pending[k];
    s.(chatHistory := s.chatHistory + [BotMessage(d.step)],
       pending := s.pending[..k] + s.pending[k + 1..],
       isChatComplete := s.isChatComplete || (d.checksCompletion && d.step.kind == ThankYou))
  }

  // ---------------------------------------------------------------------------
  // The invariant is kept by every handler

  lemma InitialInv(steps: seq<ChatStep>)
    requires Usable(steps)
    ensures Inv(steps, Initial)
  {
  }

  lemma UserRespondedInv(steps: seq<ChatStep>, s: ChatState, response: string, stepId: string)
    requires Usable(steps) && Inv(steps, s)
    ensures Inv(steps, UserResponded(steps, s, response, stepId))
  {
    var reply := Reply(steps, stepId, response);
    HistoryAppend(steps, s.chatHistory, UserMessage(response));
    ShowsEndAppend(steps, s.chatHistory, UserMessage(response));
    ScheduleAppend(steps, s.pending, Scheduled(reply));
  }

  lemma TextSubmittedInv(steps: seq<ChatStep>, s: ChatState)
    requires Usable(steps) && Inv(steps, s)
    ensures Inv(steps, TextSubmitted(steps, s))
  {
    if Trim(s.userInput) != "" {
      var step := Find(steps, s.currentStep).value;
      UserRespondedInv(steps, s, s.userInput, s.currentStep);
      var i :| 0 <= i < |steps| && steps[i] == step;
      if step.next.Fixed? {
        assert step.next.id in Targets(steps[i]);
      }
    }
  }

  lemma OptionSelectedInv(steps: seq<ChatStep>, s: ChatState, option: string, stepId: string)
    requires Usable(steps) && Inv(steps, s)
    ensures Inv(steps, OptionSelected(steps, s, option, stepId))
  {
    UserRespondedInv(steps, s, option, stepId);
    if Find(steps, stepId).Some? {
      var step := Find(steps, stepId).value;
      var i :| 0 <= i < |steps| && steps[i] == step;
      if step.next.Branch? && step.next.entries != [] {
        assert ResolveNext(step, option).value in Targets(steps[i]);
      }
    }
  }

  lemma SeededInv(steps: seq<ChatStep>, s: ChatState)
    requires Usable(steps) && Inv(steps, s)
    ensures Inv(steps, Seeded(steps, s))
  {
    if s.isOpen && s.chatHistory == [] {
      var intro := Find(steps, "intro").value;
      var i :| 0 <= i < |steps| && steps[i] == intro;
      HistoryAppend(steps, [], BotMessage(intro));
      EndMessageOfStep(steps, intro);
      ShowsEndAppend(steps, [], BotMessage(intro));
      var greeting := match IntroFollowUp(steps)
        case None => []
        case Some(step) => [Delivery(step, false)];
      ScheduleAppend(steps, s.pending, greeting);
    }
  }

  lemma ToggledInv(steps: seq<ChatStep>, s: ChatState)
    requires Usable(steps) && Inv(steps, s)
    ensures Inv(steps, Toggled(steps, s))
  {
    if !s.isMinimized {
      SeededInv(steps, s.(isOpen := !s.isOpen));
    }
  }

  lemma ChatClosedInv(steps: seq<ChatStep>, s: ChatState)
    requires Usable(steps) && Inv(steps, s)
    ensures Inv(steps, ChatClosed(s))
  {
  }

  lemma DeliveredInv(steps: seq<ChatStep>, s: ChatState, k: nat)
    requires Usable(steps) && Inv(steps, s) && k < |s.pending|
    ensures Inv(steps, Delivered(s, k))
  {
    var d := s.pending[k];
    assert Schedulable(steps, d);
    var i :| 0 <= i < |steps| && steps[i] == d.step;
    HistoryAppend(steps, s.chatHistory, BotMessage(d.step));
    EndMessageOfStep(steps, d.step);
    ShowsEndAppend(steps, s.chatHistory, BotMessage(d.step));
    ScheduleRemove(steps, s.pending, k);
  }

  // ---------------------------------------------------------------------------
  // Replies

  /**
   * In a well-formed table, an answer schedules nothing exactly when its step
   * is unknown or of type 'thank-you'; otherwise, once delivered, the reply
   * is the only new transcript entry and completes the chat exactly when it
   * is the 'thank-you' step.
   */
  lemma ReplyDelivered(steps: seq<ChatStep>, s: ChatState, response: string, stepId: string)
    requires WellFormedGraph(steps)
    ensures var t := UserResponded(steps, s, response, stepId);
            |t.pending| == |s.pending| <==> Find(steps, stepId).None? || Find(steps, stepId).value.kind == ThankYou
    ensures var t := UserResponded(steps, s, response, stepId);
            |t.pending| > |s.pending| ==>
              var target := Reply(steps, stepId, response).value;
              var u := Delivered(t, |s.pending|);
              && u.chatHistory == s.chatHistory + [UserMessage(response), BotMessage(target)]
              && u.pending == s.pending
              && (u.isChatComplete <==> s.isChatComplete || target.kind == ThankYou)
  {
    SilentStop(steps, stepId, response);
    AnswerRecorded(steps, s, response, stepId);
    var t := UserResponded(steps, s, response, stepId);
    if |t.pending| > |s.pending| {
      assert t.pending[..|s.pending|] == s.pending;
    }
  }

  /**
   * Pressing an option of a step that is not the last one in a well-formed
   * table schedules its reply; `currentStep` moves to that reply when the
   * step branches on the answer, and stays where it was when its `nextStep`
   * is a string.
   */
  lemma OptionMovesOnlyOnBranch(steps: seq<ChatStep>, s: ChatState, option: string, stepId: string)
    requires WellFormedGraph(steps)
    requires Find(steps, stepId).Some? && Find(steps, stepId).value.kind != ThankYou
    ensures Reply(steps, stepId, option).Some?
    ensures OptionSelected(steps, s, option, stepId).pending == s.pending + [Delivery(Reply(steps, stepId, option).value, true)]
    ensures Find(steps, stepId).value.next.Branch? ==>
              OptionSelected(steps, s, option, stepId).currentStep == Reply(steps, stepId, option).value.id
    ensures !Find(steps, stepId).value.next.Branch? ==>
              OptionSelected(steps, s, option, stepId).currentStep == s.currentStep
  {
    SilentStop(steps, stepId, option);
    var step := Find(steps, stepId).value;
    var i :| 0 <= i < |steps| && steps[i] == step;
  }

  // ---------------------------------------------------------------------------
  // What the user is offered

  /** The input area `renderInputForStep` draws for a step. */
  datatype Affordance =
    | NoInput
    | TextField(inputType: InputType, placeholder: Option<string>, required: bool)
    | OptionButtons(stepId: string, options: seq<string>)
    | CloseButton

  /**
   * `renderInputForStep(step)`: a text field for 'input' (of its `inputType`,
   * 'text' by default) and 'question' steps, one button per option for an
   * 'option' step that has options, a close button for 'thank-you', and
   * nothing otherwise.
   */
  function InputFor(step: ChatStep): (a: Affordance)
    ensures a == NoInput <==> step.kind == Message || (step.kind == Choice && step.options.None?)
    ensures a.TextField? <==> step.kind == Input || step.kind == Question
    ensures a.OptionButtons? ==> a.stepId == step.id && Some(a.options) == step.options
    ensures a == CloseButton <==> step.kind == ThankYou
  {
    match step.kind
    case Input =>
      TextField(if step.inputType.Some? then step.inputType.value else Text, step.placeholder,
                step.isRequired == Some(true))
    case Choice => if step.options.Some? then OptionButtons(step.id, step.options.value) else NoInput
    case Question => TextField(Text, Some("Type your answer..."), true)
    case ThankYou => CloseButton
    case Message => NoInput
  }

  /** `chatHistory[chatHistory.length - 1].id || currentStep`. */
  function ShownKey(history: seq<ChatMessage>, currentStep: string): (key: string)
    requires history != []
    ensures var id := history[|history| - 1].id;
            && (id.Some? && id.value != "" ==> key == id.value)
            && (id.None? || id.value == "" ==> key == currentStep)
  {
    var last := history[|history| - 1];
    if last.id.Some? && last.id.value != "" then last.id.value else currentStep
  }

  /**
   * The step whose input is drawn: nothing while the transcript is empty,
   * else the step named by `ShownKey`, falling back to the first step of the
   * table.
   */
  function ShownStep(steps: seq<ChatStep>, history: seq<ChatMessage>, currentStep: string): (r: Option<ChatStep>)
    ensures r.Some? ==> r.value in steps
    ensures history == [] ==> r == None
    ensures history != [] ==>
              var key := ShownKey(history, currentStep);
              && (HasId(steps, key) ==> r == Find(steps, key) && r.value.id == key)
              && (!HasId(steps, key) ==> r == if steps == [] then None else Some(steps[0]))
  {
    if history == [] then None
    else
      match Find(steps, ShownKey(history, currentStep))
      case Some(step) => Some(step)
      case None => if steps == [] then None else Some(steps[0])
  }

  /**
   * The input drawn under the transcript: none while it is empty, else what
   * `renderInputForStep` offers for the step found under `ShownKey`, or for
   * the first step of the table when none is.
   */
  function VisibleInput(steps: seq<ChatStep>, s: ChatState): (r: Affordance)
    ensures s.chatHistory == [] ==> r == NoInput
    ensures s.chatHistory != [] ==>
              var key := ShownKey(s.chatHistory, s.currentStep);
              && (HasId(steps, key) ==> r == InputFor(Find(steps, key).value))
              && (!HasId(steps, key) ==> r == if steps == [] then NoInput else InputFor(steps[0]))
  {
    match ShownStep(steps, s.chatHistory, s.currentStep)
    case None => NoInput
    case Some(step) => InputFor(step)
  }

  /**
   * Under the invariant the fallback to the first step is never taken: the
   * step drawn is the last bot message's step, or `currentStep` after a user
   * message.
   */
  lemma ShownStepFound(steps: seq<ChatStep>, s: ChatState)
    requires Inv(steps, s) && s.chatHistory != []
    ensures Find(steps, ShownKey(s.chatHistory, s.currentStep)).Some?
    ensures ShownStep(steps, s.chatHistory, s.currentStep) == Find(steps, ShownKey(s.chatHistory, s.currentStep))
  {
    var last := s.chatHistory[|s.chatHistory| - 1];
    assert FromGraph(steps, last);
    if last.role == Bot {
      var i :| 0 <= i < |steps| && last == BotMessage(steps[i]);
    }
  }

  /**
   * Nothing drives a message step forward: while the drawn step is of type
   * 'message' the user is offered no input, and toggling, minimizing or
   * closing the window neither changes that nor completes the chat; only a
   * callback scheduled earlier could add to the transcript.
   */
  lemma StuckAtMessage(steps: seq<ChatStep>, s: ChatState)
    requires Inv(steps, s) && s.chatHistory != [] && !s.isChatComplete
    requires ShownStep(steps, s.chatHistory, s.currentStep).Some?
    requires ShownStep(steps, s.chatHistory, s.currentStep).value.kind == Message
    ensures VisibleInput(steps, s) == NoInput
    ensures forall t :: t in {Toggled(steps, s), Minimized(s), ChatClosed(s)} ==>
              t.chatHistory == s.chatHistory && t.currentStep == s.currentStep &&
              VisibleInput(steps, t) == NoInput && !t.isChatComplete
  {
  }
}

=== FILE: chat_scenarios.dfy ===
/**
 * Conversations as the handlers run them. They show how the code behaves
 * where that differs from a reading of the table alone: `currentStep` trails
 * the question on screen, an 'option' step with a string `nextStep` does not
 * move it, and a 'message' step such as 'consent' offers nothing to answer
 * with. Each is proved for any table with the shape it needs, then read off
 * `INITIAL_STEPS`.
 */
module ChatScenarios {
  import opened Wrappers
  import opened ChatSteps
  import opened ChatMachine
  import opened IntakeTable
  import ChatBotController

  /** The oldest scheduled callback runs, if there is one. */
  function DeliverNext(s: ChatState): ChatState {
    if s.pending == [] then s else Delivered(s, 0)
  }

  /** The state after opening the chat and letting the greeting's follow-up, if any, arrive. */
  function Greeted(steps: seq<ChatStep>): ChatState {
    DeliverNext(Toggled(steps, Initial))
  }

  /**
   * Opening shows 'intro', then its follow-up arrives; `currentStep` stays at
   * 'intro' and nothing is answered yet.
   */
  lemma GreetingShown(steps: seq<ChatStep>, intro: ChatStep, follow: ChatStep)
    requires Find(steps, "intro") == Some(intro) && IntroFollowUp(steps) == Some(follow)
    requires Find(steps, follow.id) == Some(follow) && follow.id != ""
    ensures Greeted(steps) == Initial.(isOpen := true, chatHistory := [BotMessage(intro), BotMessage(follow)])
    ensures VisibleInput(steps, Greeted(steps)) == InputFor(follow)
  {
  }

  /**
   * Closing a completed chat resets it, and opening it again greets afresh:
   * 'intro' is shown and its follow-up is queued, behind whatever callbacks
   * were still waiting before the reset, since closing cancels none.
   */
  lemma ReopenedAfterReset(steps: seq<ChatStep>, s: ChatState, intro: ChatStep, follow: ChatStep)
    requires s.isChatComplete
    requires Find(steps, "intro") == Some(intro) && IntroFollowUp(steps) == Some(follow)
    ensures var t := Toggled(steps, ChatClosed(s));
            && t.isOpen && !t.isMinimized && !t.isChatComplete
            && t.chatHistory == [BotMessage(intro)]
            && t.pending == s.pending + [Delivery(follow, false)]
            && t.currentStep == "intro" && t.userResponses == map[] && t.userInput == s.userInput
  {
  }

  /**
   * Answering right after the greeting files the answer under 'intro': the
   * reply is the follow-up once more, and only now does `currentStep` reach it.
   */
  lemma FirstAnswerFiledUnderIntro(steps: seq<ChatStep>, intro: ChatStep, follow: ChatStep, text: string)
    requires Find(steps, "intro") == Some(intro) && IntroFollowUp(steps) == Some(follow)
    requires Find(steps, follow.id) == Some(follow) && intro.next == Fixed(follow.id) && follow.id != ""
    requires Trim(text) != ""
    ensures var s := DeliverNext(TextSubmitted(steps, InputChanged(Greeted(steps), text)));
            && s.userResponses == map["intro" := text]
            && s.chatHistory == [BotMessage(intro), BotMessage(follow), UserMessage(text), BotMessage(follow)]
            && s.currentStep == follow.id
            && s.userInput == ""
  {
    GreetingShown(steps, intro, follow);
    assert InputChanged(Greeted(steps), text) == Typed(intro, follow, text);
    AnsweredAtIntro(steps, intro, follow, text);
  }

  /** The greeting on screen with `text` typed in the field. */
  function Typed(intro: ChatStep, follow: ChatStep, text: string): ChatState {
    Initial.(isOpen := true, chatHistory := [BotMessage(intro), BotMessage(follow)], userInput := text)
  }

  lemma AnsweredAtIntro(steps: seq<ChatStep>, intro: ChatStep, follow: ChatStep, text: string)
    requires Find(steps, "intro") == Some(intro)
    requires Find(steps, follow.id) == Some(follow) && intro.next == Fixed(follow.id) && follow.id != ""
    requires Trim(text) != ""
    ensures TextSubmitted(steps, Typed(intro, follow, text)) ==
              Typed(intro, follow, text).(chatHistory := [BotMessage(intro), BotMessage(follow), UserMessage(text)],
                                         userResponses := map["intro" := text],
                                         pending := [Delivery(follow, true)],
                                         userInput := "",
                                         currentStep := follow.id)
  {
    var typed := Typed(intro, follow, text);
    TextAnswered(steps, typed, intro);
    assert Reply(steps, "intro", text) == Some(follow);
    assert map[]["intro" := text] == map["intro" := text];
    assert typed.chatHistory + [UserMessage(text)] == [BotMessage(intro), BotMessage(follow), UserMessage(text)];
    assert typed.pending + [Delivery(follow, true)] == [Delivery(follow, true)];
  }

  /** With `INITIAL_STEPS`: 'intro', then 'name' in a required text field, at `currentStep` 'intro'. */
  lemma OpeningGreets()
    ensures Greeted(Steps) == Initial.(isOpen := true, chatHistory := [BotMessage(IntroStep), BotMessage(NameStep)])
    ensures VisibleInput(Steps, Greeted(Steps)) == TextField(Text, Some("Enter your full name"), true)
  {
    ChatBotController.IntroFollowedByName();
    GreetingShown(Steps, IntroStep, NameStep);
  }

  /**
   * With `INITIAL_STEPS`: a name typed at the greeting is stored as the
   * answer to 'intro', and 'name' is asked again.
   */
  lemma NameFiledUnderIntro(name: string)
    requires Trim(name) != ""
    ensures var s := DeliverNext(TextSubmitted(Steps, InputChanged(Greeted(Steps), name)));
            && s.userResponses == map["intro" := name]
            && s.chatHistory == [BotMessage(IntroStep), BotMessage(NameStep), UserMessage(name), BotMessage(NameStep)]
            && s.currentStep == "name"
  {
    ChatBotController.IntroFollowedByName();
    FirstAnswerFiledUnderIntro(Steps, IntroStep, NameStep, name);
  }

  /** With `INITIAL_STEPS`: "Criminal Law" at 'case-type' asks 'criminal-q1' and moves `currentStep` there. */
  lemma CriminalLawSelected(s: ChatState, answer: string)
    requires answer == "Criminal Law"
    ensures OptionSelected(Steps, s, answer, "case-type").currentStep == "criminal-q1"
    ensures OptionSelected(Steps, s, answer, "case-type").pending == s.pending + [Delivery(CriminalQ1Step, true)]
  {
    InitialStepsWellFormed();
    CriminalRows();
    FoundAt(5);
    CriminalLawBranch(answer);
    OptionMovesOnlyOnBranch(Steps, s, answer, "case-type");
  }

  /**
   * With `INITIAL_STEPS`: any option pressed at 'family-q1' asks 'family-q2',
   * but `currentStep` stays where it was, since that step's `nextStep` is a
   * string.
   */
  lemma FamilyOptionLeavesCurrentStep(s: ChatState, option: string)
    ensures OptionSelected(Steps, s, option, "family-q1").currentStep == s.currentStep
    ensures OptionSelected(Steps, s, option, "family-q1").pending == s.pending + [Delivery(FamilyQ2Step, true)]
  {
    InitialStepsWellFormed();
    FamilyRows();
    FoundAt(6);
    ReplyVia(option, 6, 7);
    OptionMovesOnlyOnBranch(Steps, s, option, "family-q1");
  }

  /**
   * With `INITIAL_STEPS`: once 'consent' is the last message, the user is
   * offered nothing to answer with, and toggling, minimizing or closing the
   * window neither changes that nor completes the chat. 'consent' offers no
   * input of its own; 'thank-you' follows only an answer filed under
   * 'consent', which needs a stale question reply to draw a text field while
   * `currentStep` is 'consent' (`ThankYouReachedThroughStaleReply`).
   */
  lemma ConsentIsDeadEnd(s: ChatState)
    requires Inv(Steps, s) && s.chatHistory != [] && !s.isChatComplete
    requires s.chatHistory[|s.chatHistory| - 1] == BotMessage(ConsentStep)
    ensures VisibleInput(Steps, s) == NoInput
    ensures forall t :: t in {Toggled(Steps, s), Minimized(s), ChatClosed(s)} ==>
              VisibleInput(Steps, t) == NoInput && !t.isChatComplete
  {
    ClosingRows();
    FoundAt(18);
    DeadEndAt(Steps, s, ConsentStep);
  }

  /** A transcript that ends with a message step's bot message is stuck, as `StuckAtMessage` states. */
  lemma DeadEndAt(steps: seq<ChatStep>, s: ChatState, step: ChatStep)
    requires Inv(steps, s) && s.chatHistory != [] && !s.isChatComplete
    requires Find(steps, step.id) == Some(step) && step.id != "" && step.kind == Message
    requires s.chatHistory[|s.chatHistory| - 1] == BotMessage(step)
    ensures VisibleInput(steps, s) == NoInput
    ensures forall t :: t in {Toggled(steps, s), Minimized(s), ChatClosed(s)} ==>
              VisibleInput(steps, t) == NoInput && !t.isChatComplete
  {
    StuckAtMessage(steps, s);
  }
  /** Text typed into the field, then submitted. */
  function Submit(steps: seq<ChatStep>, s: ChatState, text: string): ChatState {
    TextSubmitted(steps, InputChanged(s, text))
  }

  /** Text submitted at a step whose `nextStep` names `next` is that step's answer, and `next` is scheduled. */
  lemma AnswerMoves(steps: seq<ChatStep>, s: ChatState, step: ChatStep, next: ChatStep, text: string)
    requires Find(steps, s.currentStep) == Some(step) && step.next == Fixed(next.id) && next.id != ""
    requires Find(steps, next.id) == Some(next) && Trim(text) != ""
    ensures var t := Submit(steps, s, text);
            && t.chatHistory == s.chatHistory + [UserMessage(text)]
            && t.userResponses == s.userResponses[s.currentStep := text]
            && t.pending == s.pending + [Delivery(next, true)]
            && t.currentStep == next.id
  {
    TextAnswered(steps, InputChanged(s, text), step);
    assert Reply(steps, s.currentStep, text) == Some(next);
  }

  /** After a user message, the field drawn is that of a question `currentStep`. */
  lemma FieldAfterAnswer(steps: seq<ChatStep>, s: ChatState, q: ChatStep)
    requires s.chatHistory != [] && s.chatHistory[|s.chatHistory| - 1].id.None?
    requires Find(steps, s.currentStep) == Some(q) && q.kind == Question
    ensures VisibleInput(steps, s) == TextField(Text, Some("Type your answer..."), true)
  {
  }

  /** After a bot message of a question step, the field drawn is that question's. */
  lemma FieldAfterQuestion(steps: seq<ChatStep>, s: ChatState, q: ChatStep)
    requires s.chatHistory != [] && s.chatHistory[|s.chatHistory| - 1] == BotMessage(q)
    requires Find(steps, q.id) == Some(q) && q.id != "" && q.kind == Question
    ensures VisibleInput(steps, s) == TextField(Text, Some("Type your answer..."), true)
  {
  }

  /**
   * An answer given before the previous reply has arrived: `q3`'s reply is
   * still waiting when `q3` is answered, so it lands after `currentStep` has
   * already moved on to `consent`, and is the last message shown.
   */
  lemma AnsweredAhead(steps: seq<ChatStep>, s: ChatState, q3: ChatStep, consent: ChatStep, b: string)
    requires Find(steps, q3.id) == Some(q3) && q3.next == Fixed(consent.id) && consent.id != ""
    requires Find(steps, consent.id) == Some(consent)
    requires s.currentStep == q3.id && s.pending == [Delivery(q3, true)]
    requires Trim(b) != ""
    ensures var t := DeliverNext(Submit(steps, s, b));
            && t.chatHistory == s.chatHistory + [UserMessage(b), BotMessage(q3)]
            && t.pending == [Delivery(consent, true)]
            && t.currentStep == consent.id
  {
    AnswerMoves(steps, s, q3, consent, b);
    var s2 := Submit(steps, s, b);
    assert s2.pending == [Delivery(q3, true)] + [Delivery(consent, true)];
    DeliverHead(s2, Delivery(q3, true), [Delivery(consent, true)]);
  }

  /** The oldest waiting reply lands: it is appended to the chat and leaves the queue. */
  lemma DeliverHead(s: ChatState, d: Delivery, rest: seq<Delivery>)
    requires s.pending == [d] + rest
    ensures DeliverNext(s).chatHistory == s.chatHistory + [BotMessage(d.step)]
    ensures DeliverNext(s).pending == rest
    ensures DeliverNext(s).currentStep == s.currentStep
  {
    assert s.pending[1..] == rest;
  }

  /**
   * With `currentStep` at the message step `consent` but a stale question
   * drawn, the text submitted is filed under `consent`, and its reply, the
   * end step, completes the chat once the callbacks have run.
   */
  lemma AnsweredAtConsent(steps: seq<ChatStep>, s: ChatState, consent: ChatStep, end: ChatStep, c: string)
    requires Find(steps, consent.id) == Some(consent) && consent.next == Fixed(end.id) && end.id != ""
    requires Find(steps, end.id) == Some(end) && end.kind == ThankYou
    requires s.currentStep == consent.id && s.pending == [Delivery(consent, true)]
    requires Trim(c) != ""
    ensures consent.id in Submit(steps, s, c).userResponses && Submit(steps, s, c).userResponses[consent.id] == c
    ensures Submit(steps, s, c).pending == [Delivery(consent, true), Delivery(end, true)]
    ensures DeliverNext(DeliverNext(Submit(steps, s, c))).isChatComplete
  {
    AnswerMoves(steps, s, consent, end, c);
    var s4 := Submit(steps, s, c);
    assert s4.pending == [Delivery(consent, true), Delivery(end, true)];
    assert DeliverNext(s4).pending == [Delivery(end, true)];
  }

  /**
   * The way out of a message step: two question steps `q2` and `q3` in a row
   * lead to the message step `consent` and on to the end step. Answering
   * `q2`, then `q3` before `q3`'s reply has arrived, moves `currentStep` to
   * `consent`; when the stale reply `q3` lands, a text field is drawn again,
   * and the text then submitted is filed under `consent`, whose reply, the
   * end step, completes the chat once the callbacks have run.
   */
  lemma StaleReplyEscape(steps: seq<ChatStep>, s: ChatState, q2: ChatStep, q3: ChatStep,
                         consent: ChatStep, end: ChatStep, a: string, b: string, c: string)
    requires Find(steps, q2.id) == Some(q2) && q2.next == Fixed(q3.id) && q3.id != ""
    requires Find(steps, q3.id) == Some(q3) && q3.kind == Question && q3.next == Fixed(consent.id) && consent.id != ""
    requires Find(steps, consent.id) == Some(consent) && consent.next == Fixed(end.id) && end.id != ""
    requires Find(steps, end.id) == Some(end) && end.kind == ThankYou
    requires s.currentStep == q2.id && s.pending == []
    requires Trim(a) != "" && Trim(b) != "" && Trim(c) != ""
    ensures var s1 := Submit(steps, s, a);
            var s3 := DeliverNext(Submit(steps, s1, b));
            var s4 := Submit(steps, s3, c);
            && VisibleInput(steps, s1) == TextField(Text, Some("Type your answer..."), true)
            && s3.currentStep == consent.id
            && VisibleInput(steps, s3) == TextField(Text, Some("Type your answer..."), true)
            && consent.id in s4.userResponses && s4.userResponses[consent.id] == c
            && s4.pending == [Delivery(consent, true), Delivery(end, true)]
            && DeliverNext(DeliverNext(s4)).isChatComplete
  {
    AnswerMoves(steps, s, q2, q3, a);
    var s1 := Submit(steps, s, a);
    FieldAfterAnswer(steps, s1, q3);
    AnsweredAhead(steps, s1, q3, consent, b);
    var s3 := DeliverNext(Submit(steps, s1, b));
    FieldAfterQuestion(steps, s3, q3);
    AnsweredAtConsent(steps, s3, consent, end, c);
  }

  /**
   * With `INITIAL_STEPS`: answering 'criminal-q2' and then 'criminal-q3'
   * within the reply delay lets the stale 'criminal-q3' reply offer a text
   * field while `currentStep` is 'consent', so the chat is completed.
   */
  lemma ThankYouReachedThroughStaleReply(s: ChatState, a: string, b: string, c: string)
    requires s.currentStep == "criminal-q2" && s.pending == []
    requires Trim(a) != "" && Trim(b) != "" && Trim(c) != ""
    ensures var s4 := Submit(Steps, DeliverNext(Submit(Steps, Submit(Steps, s, a), b)), c);
            && "consent" in s4.userResponses && s4.userResponses["consent"] == c
            && s4.pending == [Delivery(ConsentStep, true), Delivery(ThankYouStep, true)]
            && DeliverNext(DeliverNext(s4)).isChatComplete
  {
    ClosingRows();
    FoundAt(16);
    FoundAt(17);
    FoundAt(18);
    FoundAt(19);
    StaleReplyEscape(Steps, s, CriminalQ2Step, CriminalQ3Step, ConsentStep, ThankYouStep, a, b, c);
  }
}

=== FILE: chat_steps.dfy ===
/**
 * The step graph of the intake chat: the `ChatStep` record, the lookup of a
 * step by id (`INITIAL_STEPS.find`), and the rule that picks the step that
 * follows an answer. Everything here works on any table of steps; the table
 * the chat is built with, `INITIAL_STEPS`, and its properties are in module
 * IntakeTable.
 */
module ChatSteps {
  import opened Wrappers

  /** The `type` of a step; `Choice` is the source's 'option'. */
  datatype StepType = Question | Choice | Input | Message | ThankYou

  /** The `inputType` of an 'input' step. */
  datatype InputType = Text | Email | Tel

  /**
   * The `nextStep` of a step: absent, a fixed step id, or an object from
   * answer to step id. The object's entries are kept in declaration order,
   * which is the order `Object.values` reports them in.
   */
  datatype NextStep = NoNext | Fixed(id: string) | Branch(entries: seq<(string, string)>)

  datatype ChatStep = ChatStep(
    id: string,
    kind: StepType,
    content: string,
    options: Option<seq<string>>,
    inputType: Option<InputType>,
    placeholder: Option<string>,
    isRequired: Option<bool>,
    next: NextStep)


  /** True when some entry of `steps` carries the id `id`. */
  ghost predicate HasId(steps: seq<ChatStep>, id: string) {
    exists i :: 0 <= i < |steps| && steps[i].id == id
  }

  /**
   * `steps.find(step => step.id === id)`: the first entry of `steps` whose id
   * is `id`, or nothing when there is none.
   */
  function Find(steps: seq<ChatStep>, id: string): (r: Option<ChatStep>)
    ensures r.Some? <==> HasId(steps, id)
    ensures r.Some? ==> exists i :: 0 <= i < |steps| && steps[i] == r.value && r.value.id == id &&
                                    forall j :: 0 <= j < i ==> steps[j].id != id
  {
    if steps == [] then None
    else if steps[0].id == id then Some(steps[0])
    else
      var r := Find(steps[1..], id);
      assert HasId(steps[1..], id) ==> HasId(steps, id) by {
        if HasId(steps[1..], id) {
          var k :| 0 <= k < |steps| - 1 && steps[1..][k].id == id;
          assert steps[k + 1].id == id;
        }
      }
      r
  }

  /**
   * `nextStep[answer]` on a branching object: the value declared for the key
   * `answer`, or nothing.
   */
  function LookupAnswer(entries: seq<(string, string)>, answer: string): (r: Option<string>)
    ensures r.Some? <==> exists i :: 0 <= i < |entries| && entries[i].0 == answer
    ensures r.Some? ==> (answer, r.value) in entries
  {
    if entries == [] then None
    else if entries[0].0 == answer then Some(entries[0].1)
    else
      var r := LookupAnswer(entries[1..], answer);
      assert (exists i :: 0 <= i < |entries| - 1 && entries[1..][i].0 == answer) <==>
             (exists i :: 1 <= i < |entries| && entries[i].0 == answer) by {
        if i :| 1 <= i < |entries| && entries[i].0 == answer {
          assert entries[1..][i - 1].0 == answer;
        }
      }
      r
  }

  /**
   * `nextStep[answer] || Object.values(nextStep)[0]`: the declared target of
   * `answer` when that is a non-empty string, and otherwise the first declared
   * target; nothing when the object has no entries.
   */
  function BranchTarget(entries: seq<(string, string)>, answer: string): (r: Option<string>)
    ensures entries == [] ==> r == None
    ensures LookupAnswer(entries, answer).Some? && LookupAnswer(entries, answer).value != "" ==>
              r == LookupAnswer(entries, answer)
    ensures (LookupAnswer(entries, answer).None? || LookupAnswer(entries, answer).value == "") && entries != [] ==>
              r == Some(entries[0].1)
    ensures r.Some? ==> exists e :: e in entries && e.1 == r.value
  {
    match LookupAnswer(entries, answer)
    case Some(target) =>
      if target != "" then Some(target) else Some(entries[0].1)
    case None =>
      if entries == [] then None else Some(entries[0].1)
  }

  /**
   * The id `handleUserResponse` goes on to, or nothing when it stops early:
   * a missing or falsy (empty) `nextStep` stops it; a string is used as it
   * is; an object is resolved by `BranchTarget`.
   */
  function ResolveNext(step: ChatStep, answer: string): (r: Option<string>)
    ensures step.next.NoNext? ==> r == None
    ensures step.next.Fixed? ==> (r.Some? <==> step.next.id != "") && (r.Some? ==> r.value == step.next.id)
    ensures step.next.Branch? ==> r == BranchTarget(step.next.entries, answer)
    ensures r.Some? ==> r.value in Targets(step)
  {
    match step.next
    case NoNext => None
    case Fixed(id) => if id == "" then None else Some(id)
    case Branch(entries) => BranchTarget(entries, answer)
  }

  /** The ids a step's `nextStep` names, fixed or as the values of its object. */
  function Targets(step: ChatStep): set<string> {
    match step.next
    case NoNext => {}
    case Fixed(id) => {id}
    case Branch(entries) => set e | e in entries :: e.1
  }

  /**
   * The step whose content `handleUserResponse(answer, stepId)` schedules as
   * the bot's reply, or nothing when it stops silently (unknown `stepId`, no
   * `nextStep`, or a target id that is not in the table).
   */
  function Reply(steps: seq<ChatStep>, stepId: string, answer: string): (r: Option<ChatStep>)
    ensures r.Some? ==> r.value in steps
    ensures r.Some? <==> Find(steps, stepId).Some? && ResolveNext(Find(steps, stepId).value, answer).Some? &&
                         HasId(steps, ResolveNext(Find(steps, stepId).value, answer).value)
    ensures r.Some? ==> r.value.id == ResolveNext(Find(steps, stepId).value, answer).value
  {
    match Find(steps, stepId)
    case None => None
    case Some(step) =>
      match ResolveNext(step, answer)
      case None => None
      case Some(target) => Find(steps, target)
  }

  // ---------------------------------------------------------------------------
  // Well-formed tables

  /** No two entries share an id. */
  ghost predicate UniqueIds(steps: seq<ChatStep>) {
    forall i, j :: 0 <= i < |steps| && 0 <= j < |steps| && steps[i].id == steps[j].id ==> i == j
  }

  /** Every target of every entry names an entry. */
  ghost predicate Closed(steps: seq<ChatStep>) {
    forall i, t :: 0 <= i < |steps| && t in Targets(steps[i]) ==> HasId(steps, t)
  }

  /**
   * Every `nextStep` that is present is truthy (not the empty string, not an
   * object without entries), and it is absent exactly on steps of type
   * 'thank-you'.
   */
  ghost predicate TruthyNext(steps: seq<ChatStep>) {
    forall i :: 0 <= i < |steps| ==>
      && (steps[i].next.NoNext? <==> steps[i].kind == ThankYou)
      && (steps[i].next.Fixed? ==> steps[i].next.id != "")
      && (steps[i].next.Branch? ==> steps[i].next.entries != [])
  }

  ghost predicate WellFormedGraph(steps: seq<ChatStep>) {
    UniqueIds(steps) && Closed(steps) && TruthyNext(steps)
  }

  /** With unique ids, the lookup finds every entry by its own id. */
  lemma FindEntry(steps: seq<ChatStep>, step: ChatStep)
    requires UniqueIds(steps) && step in steps
    ensures Find(steps, step.id) == Some(step)
  {
    var i :| 0 <= i < |steps| && steps[i] == step;
    var r := Find(steps, step.id);
    var k :| 0 <= k < |steps| && steps[k] == r.value && r.value.id == step.id;
  }

  /** In a closed table, every id an entry resolves to, for any answer, is found. */
  lemma TargetsFound(steps: seq<ChatStep>, step: ChatStep, answer: string)
    requires Closed(steps) && step in steps
    ensures ResolveNext(step, answer).Some? ==> Find(steps, ResolveNext(step, answer).value).Some?
  {
  }

  /**
   * In a well-formed table, `handleUserResponse` stops without a reply exactly
   * when `stepId` is unknown or names a step of type 'thank-you'.
   */
  lemma SilentStop(steps: seq<ChatStep>, stepId: string, answer: string)
    requires WellFormedGraph(steps)
    ensures Reply(steps, stepId, answer).None? <==>
              Find(steps, stepId).None? || Find(steps, stepId).value.kind == ThankYou
  {
    if Find(steps, stepId).Some? {
      var step := Find(steps, stepId).value;
      var i :| 0 <= i < |steps| && steps[i] == step;
      TargetsFound(steps, step, answer);
    }
  }

  /**
   * When the steps of type 'thank-you' are exactly those with id `endId`, a
   * well-formed table stops without a reply exactly for unknown ids and for
   * `endId`.
   */
  lemma SilentStopAt(steps: seq<ChatStep>, endId: string, stepId: string, answer: string)
    requires WellFormedGraph(steps)
    requires forall i :: 0 <= i < |steps| ==> (steps[i].kind == ThankYou <==> steps[i].id == endId)
    ensures Reply(steps, stepId, answer).None? <==> !HasId(steps, stepId) || stepId == endId
  {
    SilentStop(steps, stepId, answer);
    if Find(steps, stepId).Some? {
      var i :| 0 <= i < |steps| && steps[i] == Find(steps, stepId).value;
    }
  }

  /**
   * When `lastId` is the only entry naming `endId` as a target, and it names
   * no other, the reply is the step `endId` exactly after an answer at `lastId`.
   */
  lemma OnlyPathTo(steps: seq<ChatStep>, lastId: string, endId: string, stepId: string, answer: string)
    requires UniqueIds(steps) && Closed(steps)
    requires forall i :: 0 <= i < |steps| ==> (endId in Targets(steps[i]) <==> steps[i].id == lastId)
    requires forall i :: 0 <= i < |steps| && steps[i].id == lastId ==> steps[i].next == Fixed(endId) && endId != ""
    ensures (Reply(steps, stepId, answer).Some? && Reply(steps, stepId, answer).value.id == endId) <==>
            stepId == lastId && HasId(steps, lastId)
  {
    if Find(steps, stepId).Some? {
      var step := Find(steps, stepId).value;
      var i :| 0 <= i < |steps| && steps[i] == step;
      TargetsFound(steps, step, answer);
    }
  }
}

=== FILE: expertise.dfy ===
/**
 * The areas-of-expertise tabs: the selected tab, which rotates every five
 * seconds and can be picked by a click, and the `isAnimating` flag that fades
 * the detail panel out while a change is waiting for its 300 ms callback.
 */
module Expertise {
  import opened Bools

  /** An entry of `expertiseAreas`, without its description and icon. */
  datatype ExpertiseArea = ExpertiseArea(title: string, areas: seq<string>)

  const ExpertiseAreas: seq<ExpertiseArea> := [
    ExpertiseArea("Family Law", ["Divorce & Separation", "Child Custody & Support", "Adoption",
                                 "Domestic Violence", "Alimony", "Prenuptial Agreements"]),
    ExpertiseArea("Corporate Law", ["Business Formation", "Corporate Governance", "Mergers & Acquisitions",
                                    "Contract Drafting & Review", "Intellectual Property", "Compliance"]),
    ExpertiseArea("Criminal Law", ["Criminal Defense", "White Collar Crimes", "DUI Defense",
                                   "Juvenile Crime", "Appeals", "Bail Applications"]),
    ExpertiseArea("Labour Law", ["Employment Contracts", "Workplace Discrimination", "Wrongful Termination",
                                 "Wage & Hour Disputes", "Workers Compensation", "Union Relations"])
  ]

  /** `expertiseAreas.length`. */
  const AreaCount: nat := |ExpertiseAreas|

  /**
   * A selection change waiting for its 300 ms callback: the interval's
   * `(prev + 1) % length`, or a click's fixed index.
   */
  datatype DeferredChange = Advance | Select(index: nat)

  /** The selected index after one deferred change runs. */
  function Apply(selected: nat, change: DeferredChange): (r: nat)
    requires selected < AreaCount
    requires change.Select? ==> change.index < AreaCount
    ensures r < AreaCount
    ensures change.Select? ==> r == change.index
  {
    match change
    case Advance => (selected + 1) % AreaCount
    case Select(index) => index
  }

  /** Every click in `changes` names a tab that exists. */
  predicate InRange(changes: seq<DeferredChange>) {
    forall k :: 0 <= k < |changes| && changes[k].Select? ==> changes[k].index < AreaCount
  }

  /** The selected index once every change in `changes` has run, in order. */
  function Settle(selected: nat, changes: seq<DeferredChange>): (r: nat)
    requires selected < AreaCount && InRange(changes)
    ensures r < AreaCount
    decreases |changes|
  {
    if changes == [] then selected else Settle(Apply(selected, changes[0]), changes[1..])
  }

  /** `n` rotations of the interval, each one tab onwards. */
  function Rotations(n: nat): (r: seq<DeferredChange>)
    ensures |r| == n && InRange(r)
    ensures forall k :: 0 <= k < n ==> r[k] == Advance
  {
    seq(n, _ => Advance)
  }

  /** `n` rotations move the selection `n` tabs on, modulo the number of tabs. */
  lemma {:induction false} RotationsAdd(selected: nat, n: nat)
    requires selected < AreaCount
    ensures Settle(selected, Rotations(n)) == (selected + n) % AreaCount
    decreases n
  {
    if n == 0 {
      assert Rotations(0) == [];
    } else {
      var next := (selected + 1) % AreaCount;
      assert Rotations(n)[1..] == Rotations(n - 1);
      RotationsAdd(next, n - 1);
      assert (next + (n - 1)) % AreaCount == (selected + n) % AreaCount by {
        ModShift(selected + 1, n - 1);
      }
    }
  }

  lemma ModShift(a: nat, b: nat)
    ensures (a % AreaCount + b) % AreaCount == (a + b) % AreaCount
  {
    var q := a / AreaCount;
    assert a == q * AreaCount + a % AreaCount;
    assert a + b == (a % AreaCount + b) + q * AreaCount;
  }

  /** Four rotations bring the panel back to the tab it started from. */
  lemma FullCycle(selected: nat)
    requires selected < AreaCount
    ensures Settle(selected, Rotations(AreaCount)) == selected
  {
    RotationsAdd(selected, AreaCount);
    assert (selected + AreaCount) % AreaCount == selected;
  }

  lemma {:induction false} SettleAppend(selected: nat, changes: seq<DeferredChange>, change: DeferredChange)
    requires selected < AreaCount && InRange(changes + [change])
    ensures InRange(changes) && (change.Select? ==> change.index < AreaCount)
    ensures Settle(selected, changes + [change]) == Apply(Settle(selected, changes), change)
    decreases |changes|
  {
    assert InRange(changes) by {
      forall k | 0 <= k < |changes| && changes[k].Select?
        ensures changes[k].index < AreaCount
      {
        assert (changes + [change])[k] == changes[k];
      }
    }
    assert (changes + [change])[|changes|] == change;
    if changes == [] {
      assert [change][1..] == [];
    } else {
      assert (changes + [change])[1..] == changes[1..] + [change];
      assert (changes + [change])[0] == changes[0];
      SettleAppend(Apply(selected, changes[0]), changes[1..], change);
    }
  }

  /**
   * The last click wins: whatever was waiting before it, the selection ends
   * on the clicked tab, moved on by the rotations queued after the click.
   */
  lemma {:induction false} LastClickWins(selected: nat, before: seq<DeferredChange>, index: nat, after: nat)
    requires selected < AreaCount && InRange(before) && index < AreaCount
    ensures InRange(before + [Select(index)] + Rotations(after))
    ensures Settle(selected, before + [Select(index)] + Rotations(after)) == (index + after) % AreaCount
    decreases after
  {
    var changes := before + [Select(index)] + Rotations(after);
    assert InRange(changes) by {
      forall k | 0 <= k < |changes| && changes[k].Select?
        ensures changes[k].index < AreaCount
      {
        if k < |before| {
          assert changes[k] == before[k];
        }
      }
    }
    if after == 0 {
      assert changes == before + [Select(index)];
      SettleAppend(selected, before, Select(index));
    } else {
      assert changes == (before + [Select(index)] + Rotations(after - 1)) + [Advance];
      LastClickWins(selected, before, index, after - 1);
      SettleAppend(selected, before + [Select(index)] + Rotations(after - 1), Advance);
      ModShift(index + after - 1, 1);
    }
  }

  /** The tab buttons' highlight: exactly the selected one is `true`. */
  function Highlights(selected: nat): (r: seq<bool>)
    requires selected < AreaCount
    ensures |r| == AreaCount
    ensures forall k :: 0 <= k < AreaCount ==> (r[k] <==> k == selected)
  {
    seq(AreaCount, k => k == selected)
  }

  /** Exactly one tab is highlighted. */
  lemma OneTabHighlighted(selected: nat)
    requires selected < AreaCount
    ensures CountTrue(Highlights(selected)) == 1
  {
    CountOneAt(Highlights(selected), selected);
  }

  lemma {:induction false} CountOneAt(bs: seq<bool>, at: int)
    requires forall k :: 0 <= k < |bs| ==> (bs[k] <==> k == at)
    requires 0 <= at < |bs|
    ensures CountTrue(bs) == 1
    decreases |bs|
  {
    if at == 0 {
      NoneTrue(bs[1..]);
    } else {
      CountOneAt(bs[1..], at - 1);
    }
  }

  lemma {:induction false} NoneTrue(bs: seq<bool>)
    requires forall k :: 0 <= k < |bs| ==> !bs[k]
    ensures CountTrue(bs) == 0
    decreases |bs|
  {
    if bs != [] {
      NoneTrue(bs[1..]);
    }
  }

  // ---------------------------------------------------------------------------
  // The component's state

  class ExpertiseTabs {
    var selectedExpertise: nat
    var isAnimating: bool
    /** The 300 ms callbacks not run yet, oldest first; equal delays run in scheduling order. */
    var pending: seq<DeferredChange>

    /**
     * The selection names a tab, every queued click names a tab, and the
     * panel is only faded out while some change is still waiting.
     */
    ghost predicate Valid()
      reads this
    {
      selectedExpertise < AreaCount && InRange(pending) && (isAnimating ==> pending != [])
    }

    constructor()
      ensures Valid()
      ensures selectedExpertise == 0 && !isAnimating && pending == []
    {
      selectedExpertise := 0;
      isAnimating := false;
      pending := [];
    }

    /** The interval's body: fade out and queue a rotation. */
    method IntervalTick()
      requires Valid()
      modifies this
      ensures Valid() && isAnimating && selectedExpertise == old(selectedExpertise)
      ensures pending == old(pending) + [Advance]
    {
      isAnimating := true;
      pending := pending + [Advance];
    }

    /** A tab's `onClick`: fade out and queue the jump to `index`. */
    method SelectTab(index: nat)
      requires Valid() && index < AreaCount
      modifies this
      ensures Valid() && isAnimating && selectedExpertise == old(selectedExpertise)
      ensures pending == old(pending) + [Select(index)]
    {
      isAnimating := true;
      pending := pending + [Select(index)];
    }

    /**
     * The oldest 300 ms callback runs: it applies its change and fades the
     * panel back in, even when later changes are still waiting.
     */
    method ApplyDeferred()
      requires Valid() && pending != []
      modifies this
      ensures Valid() && !isAnimating
      ensures selectedExpertise == Apply(old(selectedExpertise), old(pending)[0])
      ensures pending == old(pending)[1..]
    {
      selectedExpertise := Apply(selectedExpertise, pending[0]);
      isAnimating := false;
      pending := pending[1..];
    }

    /** Runs every waiting callback, oldest first. */
    method ApplyAll()
      requires Valid()
      modifies this
      ensures Valid() && pending == [] && !isAnimating
      ensures selectedExpertise == Settle(old(selectedExpertise), old(pending))
    {
      ghost var start := selectedExpertise;
      ghost var queued := pending;
      isAnimating := false;
      while pending != []
        invariant Valid() && !isAnimating
        invariant |pending| <= |queued| && pending == queued[|queued| - |pending|..]
        invariant InRange(queued) && Settle(selectedExpertise, pending) == Settle(start, queued)
        decreases |pending|
      {
        ApplyDeferred();
      }
    }

    /** The area the detail panel shows: `expertiseAreas[selectedExpertise]`, always an entry. */
    function ShownArea(): (area: ExpertiseArea)
      requires Valid()
      reads this
      ensures area in ExpertiseAreas
    {
      ExpertiseAreas[selectedExpertise]
    }
  }

  /** Four interval ticks, each followed by its callback, bring the panel back to the tab it showed. */
  method FourTicksReturn(start: nat) returns (shown: nat)
    requires start < AreaCount
    ensures shown == start
  {
    var tabs := new ExpertiseTabs();
    tabs.SelectTab(start);
    tabs.ApplyDeferred();
    var n := 0;
    while n < AreaCount
      invariant 0 <= n <= AreaCount
      invariant tabs.Valid() && tabs.pending == []
      invariant tabs.selectedExpertise == (start + n) % AreaCount
    {
      tabs.IntervalTick();
      tabs.ApplyDeferred();
      ModShift(start + n, 1);
      n := n + 1;
    }
    shown := tabs.selectedExpertise;
  }

  /**
   * A click while a rotation is waiting: the rotation's callback runs first,
   * and clears `isAnimating` although the clicked tab's callback has not run.
   */
  method ClickDuringRotation(start: nat, index: nat) returns (shownBetween: nat, animatingBetween: bool, shown: nat)
    requires start < AreaCount && index < AreaCount
    ensures shownBetween == (start + 1) % AreaCount && !animatingBetween
    ensures shown == index
  {
    var tabs := new ExpertiseTabs();
    tabs.SelectTab(start);
    tabs.ApplyDeferred();
    tabs.IntervalTick();
    tabs.SelectTab(index);
    tabs.ApplyDeferred();
    shownBetween, animatingBetween := tabs.selectedExpertise, tabs.isAnimating;
    tabs.ApplyDeferred();
    shown := tabs.selectedExpertise;
  }
}

=== FILE: intake_table.dfy ===
/**
 * `INITIAL_STEPS`, the table the intake chat is built with, `findStepById`
 * over it, and the properties of the conversation this table gives.
 */
module IntakeTable {
  import opened Wrappers
  import opened ChatSteps

  // Shorthands for the four shapes of record the table uses.

  function MessageStep(id: string, content: string, next: NextStep): ChatStep {
    ChatStep(id, Message, content, None, None, None, None, next)
  }

  function InputStep(id: string, inputType: InputType, content: string, placeholder: string, next: string): ChatStep {
    ChatStep(id, Input, content, None, Some(inputType), Some(placeholder), Some(true), Fixed(next))
  }

  function ChoiceStep(id: string, content: string, options: seq<string>, next: NextStep): ChatStep {
    ChatStep(id, Choice, content, Some(options), None, None, None, next)
  }

  function QuestionStep(id: string, content: string, next: string): ChatStep {
    ChatStep(id, Question, content, None, None, None, None, Fixed(next))
  }

  // The entries of `INITIAL_STEPS`, one constant each.
  const IntroStep: ChatStep :=
    MessageStep("intro",
      "Hello, welcome to Law Suvidha. I'm here to help you with your legal queries. To get started, I'll need some information from you.",
      Fixed("name"))
  const NameStep: ChatStep :=
    InputStep("name", Text, "What is your name?", "Enter your full name", "contact")
  const ContactStep: ChatStep :=
    InputStep("contact", Tel, "What is your contact number?", "Enter your phone number", "email")
  const EmailStep: ChatStep :=
    InputStep("email", Email, "What is your email address?", "Enter your email", "location")
  const LocationStep: ChatStep :=
    InputStep("location", Text, "Where are you located?", "Enter your city", "case-type")
  const CaseTypeStep: ChatStep :=
    ChoiceStep("case-type", "What type of legal assistance do you need?",
      ["Family Law", "Corporate Law", "Labour Law", "Criminal Law"],
      Branch([("Family Law", "family-q1"), ("Corporate Law", "corporate-q1"),
              ("Labour Law", "labour-q1"), ("Criminal Law", "criminal-q1")]))
  const FamilyQ1Step: ChatStep :=
    ChoiceStep("family-q1", "What aspect of Family Law do you need help with?",
      ["Divorce", "Child Custody", "Alimony", "Property Distribution", "Other"],
      Fixed("family-q2"))
  const FamilyQ2Step: ChatStep :=
    QuestionStep("family-q2", "How long has this issue been ongoing?", "family-q3")
  const FamilyQ3Step: ChatStep :=
    QuestionStep("family-q3", "Have you previously consulted any other lawyer regarding this matter?", "consent")
  const CorporateQ1Step: ChatStep :=
    ChoiceStep("corporate-q1", "What area of Corporate Law are you interested in?",
      ["Business Formation", "Contracts", "Intellectual Property", "Compliance", "Dispute Resolution", "Other"],
      Fixed("corporate-q2"))
  const CorporateQ2Step: ChatStep :=
    QuestionStep("corporate-q2", "Is this for an existing business or a new venture?", "corporate-q3")
  const CorporateQ3Step: ChatStep :=
    QuestionStep("corporate-q3", "What is the approximate size of your business (number of employees)?", "consent")
  const LabourQ1Step: ChatStep :=
    ChoiceStep("labour-q1", "What specific Labour Law issue do you need assistance with?",
      ["Wrongful Termination", "Workplace Discrimination", "Wage Disputes", "Workers Compensation", "Other"],
      Fixed("labour-q2"))
  const LabourQ2Step: ChatStep :=
    QuestionStep("labour-q2", "When did this incident or issue occur?", "labour-q3")
  const LabourQ3Step: ChatStep :=
    QuestionStep("labour-q3", "Have you filed any formal complaints with HR or other authorities?", "consent")
  const CriminalQ1Step: ChatStep :=
    ChoiceStep("criminal-q1", "What type of Criminal Law matter do you need help with?",
      ["Criminal Defense", "Bail Application", "Appeals", "Other"],
      Fixed("criminal-q2"))
  const CriminalQ2Step: ChatStep :=
    QuestionStep("criminal-q2", "Has a case been registered or any legal proceedings started?", "criminal-q3")
  const CriminalQ3Step: ChatStep :=
    QuestionStep("criminal-q3", "What is the current status of your case?", "consent")
  const ConsentStep: ChatStep :=
    MessageStep("consent",
      "Thank you for providing this information. Do you consent to Law Suvidha storing the information you've shared for the purpose of addressing your legal query?",
      Fixed("thank-you"))
  const ThankYouStep: ChatStep :=
    ChatStep("thank-you", ThankYou,
      "Thank you for reaching out to Law Suvidha. One of our legal experts will review your information and contact you within 24 hours. We look forward to assisting you with your legal matter.",
      None, None, None, None, NoNext)

  /** `INITIAL_STEPS`, in declaration order. */
  const Steps: seq<ChatStep> := [
    IntroStep, NameStep, ContactStep, EmailStep, LocationStep,
    CaseTypeStep, FamilyQ1Step, FamilyQ2Step, FamilyQ3Step, CorporateQ1Step,
    CorporateQ2Step, CorporateQ3Step, LabourQ1Step, LabourQ2Step, LabourQ3Step,
    CriminalQ1Step, CriminalQ2Step, CriminalQ3Step, ConsentStep, ThankYouStep
  ]


  /** The ids declared in the table. */
  const StepIds: set<string> := {
    "intro", "name", "contact", "email", "location", "case-type",
    "family-q1", "family-q2", "family-q3", "corporate-q1", "corporate-q2", "corporate-q3",
    "labour-q1", "labour-q2", "labour-q3", "criminal-q1", "criminal-q2", "criminal-q3",
    "consent", "thank-you"
  }

  /** `findStepById`: the table entry with id `id`, found exactly for the ids the table declares. */
  function FindStepById(id: string): (r: Option<ChatStep>)
    ensures r.Some? <==> id in StepIds
    ensures r.Some? ==> r.value in Steps && r.value.id == id
  {
    StepIdsDeclared();
    IdsAreDeclared();
    Find(Steps, id)
  }

  // ---------------------------------------------------------------------------
  // The table is well formed

  lemma IdsUniqueFirstHalf()
    ensures forall i, j :: 0 <= i < j < 10 ==> Steps[i].id != Steps[j].id
  {
  }

  lemma IdsUniqueSecondHalf()
    ensures forall i, j :: 10 <= i < j < |Steps| ==> Steps[i].id != Steps[j].id
  {
  }

  lemma IdsUniqueAcrossHalves()
    ensures forall i, j :: 0 <= i < 10 <= j < |Steps| ==> Steps[i].id != Steps[j].id
  {
  }

  /** Every id in `INITIAL_STEPS` is declared once. */
  lemma InitialIdsUnique()
    ensures UniqueIds(Steps)
  {
    IdsUniqueFirstHalf();
    IdsUniqueSecondHalf();
    IdsUniqueAcrossHalves();
  }

  lemma IdsAreDeclared()
    ensures forall i :: 0 <= i < |Steps| ==> Steps[i].id in StepIds
  {
  }

  lemma StepIdsDeclared()
    ensures forall id :: id in StepIds ==> HasId(Steps, id)
  {
    var ids := [
      "intro", "name", "contact", "email", "location", "case-type",
      "family-q1", "family-q2", "family-q3", "corporate-q1", "corporate-q2", "corporate-q3",
      "labour-q1", "labour-q2", "labour-q3", "criminal-q1", "criminal-q2", "criminal-q3",
      "consent", "thank-you"];
    forall k | 0 <= k < |Steps| ensures Steps[k].id == ids[k] { }
    forall id | id in StepIds ensures HasId(Steps, id) {
      assert id in ids;
      var k :| 0 <= k < |ids| && ids[k] == id;
      assert Steps[k].id == id;
    }
  }

  lemma TargetsDeclared()
    ensures forall i :: 0 <= i < |Steps| ==> Targets(Steps[i]) <= StepIds
  {
  }

  /** Every `nextStep` target in `INITIAL_STEPS`, string or object value, names an entry. */
  lemma InitialStepsClosed()
    ensures Closed(Steps)
  {
    TargetsDeclared();
    StepIdsDeclared();
  }

  /** Every `nextStep` present is truthy, and only the 'thank-you' step has none. */
  lemma InitialStepsTruthy()
    ensures TruthyNext(Steps)
  {
  }

  lemma InitialStepsWellFormed()
    ensures WellFormedGraph(Steps)
  {
    InitialIdsUnique();
    InitialStepsClosed();
    InitialStepsTruthy();
  }

  // ---------------------------------------------------------------------------
  // The conversation this table gives

  /** Looking up a step the table holds at position `i`. */
  lemma FoundAt(i: nat)
    requires i < |Steps|
    ensures FindStepById(Steps[i].id) == Some(Steps[i])
  {
    InitialIdsUnique();
    FindEntry(Steps, Steps[i]);
  }

  lemma OpeningRows()
    ensures |Steps| == 20 && Steps[0] == IntroStep && Steps[1] == NameStep
  {
  }

  lemma ClosingRows()
    ensures |Steps| == 20 && Steps[16] == CriminalQ2Step && Steps[17] == CriminalQ3Step
    ensures Steps[18] == ConsentStep && Steps[19] == ThankYouStep
  {
  }

  /** The greeting: 'intro' is found, its `nextStep` is the string 'name', and 'name' is found. */
  lemma IntroGreeting()
    ensures FindStepById("intro") == Some(IntroStep) && IntroStep.next == Fixed("name")
    ensures FindStepById("name") == Some(NameStep)
  {
    FoundAt(0);
    FoundAt(1);
  }

  /** The only step of type 'thank-you' is the step 'thank-you'. */
  lemma OnlyThankYouStep()
    ensures forall i :: 0 <= i < |Steps| ==> (Steps[i].kind == ThankYou <==> Steps[i].id == "thank-you")
  {
  }

  /**
   * With this table, `handleUserResponse` adds no reply exactly when `stepId`
   * is not a declared id or is 'thank-you'.
   */
  lemma SilentStopOnlyAtThankYou(stepId: string, answer: string)
    ensures Reply(Steps, stepId, answer).None? <==> stepId !in StepIds || stepId == "thank-you"
  {
    InitialStepsWellFormed();
    OnlyThankYouStep();
    StepIdsDeclared();
    IdsAreDeclared();
    SilentStopAt(Steps, "thank-you", stepId, answer);
  }

  /** The target 'case-type' resolves each answer to. */
  lemma CaseTypeTargets(answer: string)
    ensures ResolveNext(CaseTypeStep, answer) ==
      Some(if answer == "Corporate Law" then "corporate-q1"
           else if answer == "Labour Law" then "labour-q1"
           else if answer == "Criminal Law" then "criminal-q1"
           else "family-q1")
  {
  }

  // Positions in the table of the steps the branch lemmas read.

  lemma FamilyRows()
    ensures |Steps| == 20 && Steps[5] == CaseTypeStep && Steps[6] == FamilyQ1Step && Steps[7] == FamilyQ2Step
  {
  }

  lemma CorporateRows()
    ensures |Steps| == 20 && Steps[5] == CaseTypeStep && Steps[9] == CorporateQ1Step
  {
  }

  lemma LabourRows()
    ensures |Steps| == 20 && Steps[5] == CaseTypeStep && Steps[12] == LabourQ1Step
  {
  }

  lemma CriminalRows()
    ensures |Steps| == 20 && Steps[5] == CaseTypeStep && Steps[15] == CriminalQ1Step
  {
  }

  /** A reply read off the table: the step at `src` resolves `answer` to the id of the step at `dst`. */
  lemma ReplyVia(answer: string, src: nat, dst: nat)
    requires src < |Steps| && dst < |Steps|
    requires ResolveNext(Steps[src], answer) == Some(Steps[dst].id)
    ensures Reply(Steps, Steps[src].id, answer) == Some(Steps[dst])
  {
    FoundAt(src);
    FoundAt(dst);
  }

  /** At 'case-type', the answer "Corporate Law" goes to 'corporate-q1'. */
  lemma CorporateLawBranch(answer: string)
    requires answer == "Corporate Law"
    ensures Reply(Steps, "case-type", answer) == Some(CorporateQ1Step)
  {
    CaseTypeTargets(answer);
    CorporateRows();
    ReplyVia(answer, 5, 9);
  }

  /** At 'case-type', the answer "Labour Law" goes to 'labour-q1'. */
  lemma LabourLawBranch(answer: string)
    requires answer == "Labour Law"
    ensures Reply(Steps, "case-type", answer) == Some(LabourQ1Step)
  {
    CaseTypeTargets(answer);
    LabourRows();
    ReplyVia(answer, 5, 12);
  }

  /** At 'case-type', the answer "Criminal Law" goes to 'criminal-q1'. */
  lemma CriminalLawBranch(answer: string)
    requires answer == "Criminal Law"
    ensures Reply(Steps, "case-type", answer) == Some(CriminalQ1Step)
  {
    CaseTypeTargets(answer);
    CriminalRows();
    ReplyVia(answer, 5, 15);
  }

  /**
   * At 'case-type', any other answer, the declared "Family Law" or one the
   * options do not list, goes to the first declared target, 'family-q1'.
   */
  lemma OtherAnswersBranch(answer: string)
    requires answer != "Corporate Law" && answer != "Labour Law" && answer != "Criminal Law"
    ensures Reply(Steps, "case-type", answer) == Some(FamilyQ1Step)
  {
    CaseTypeTargets(answer);
    FamilyRows();
    ReplyVia(answer, 5, 6);
  }

  /** 'consent' is the only step that names 'thank-you' as a target. */
  lemma ThankYouTargetedOnlyByConsent()
    ensures forall i :: 0 <= i < |Steps| ==> ("thank-you" in Targets(Steps[i]) <==> Steps[i].id == "consent")
  {
  }

  /** The only step whose answer is followed by the 'thank-you' step is 'consent'. */
  lemma OnlyConsentLeadsToThankYou(stepId: string, answer: string)
    ensures Reply(Steps, stepId, answer).Some? && Reply(Steps, stepId, answer).value.kind == ThankYou
            <==> stepId == "consent"
  {
    InitialIdsUnique();
    InitialStepsClosed();
    ThankYouTargetedOnlyByConsent();
    OnlyThankYouStep();
    assert Steps[18].id == "consent";
    OnlyPathTo(Steps, "consent", "thank-you", stepId, answer);
  }
}

=== FILE: testimonials.dfy ===
/**
 * The testimonials carousel: which of the four testimonials is shown, the
 * `isTransitioning` guard against navigating during a slide, the autoplay
 * flag, and the five-star rating row.
 */
module Testimonials {
  import opened Bools

  datatype Testimonial = Testimonial(id: nat, name: string, position: string, rating: int)

  /** The `testimonials` list, without the quotes and portrait URLs. */
  const TestimonialList: seq<Testimonial> := [
    Testimonial(1, "Rajesh Kumar", "Business Owner", 5),
    Testimonial(2, "Priya Sharma", "IT Professional", 5),
    Testimonial(3, "Aditya Patel", "Entrepreneur", 4),
    Testimonial(4, "Meera Desai", "HR Manager", 5)
  ]

  /** `testimonials.length`. */
  const Count: nat := |TestimonialList|

  // ---------------------------------------------------------------------------
  // Wrap-around navigation

  /** The index `goToNextSlide` moves to: the last index wraps to 0. */
  function NextIndex(i: nat, len: nat): (r: nat)
    requires i < len
    ensures r < len
  {
    if i == len - 1 then 0 else i + 1
  }

  /** The index `goToPrevSlide` moves to: 0 wraps to the last index. */
  function PrevIndex(i: nat, len: nat): (r: nat)
    requires i < len
    ensures r < len
  {
    if i == 0 then len - 1 else i - 1
  }

  /** Moving on is adding one modulo the length. */
  lemma NextIsSuccessorModLength(i: nat, len: nat)
    requires i < len
    ensures NextIndex(i, len) == (i + 1) % len
  {
    if i == len - 1 {
      assert (i + 1) % len == len % len == 0;
    } else {
      assert (i + 1) % len == i + 1;
    }
  }

  /** Moving back is subtracting one modulo the length. */
  lemma PrevIsPredecessorModLength(i: nat, len: nat)
    requires i < len
    ensures PrevIndex(i, len) == (i + len - 1) % len
  {
    if i == 0 {
      assert (len - 1) % len == len - 1;
    } else {
      assert (i + len - 1) % len == (i - 1 + len) % len == i - 1;
    }
  }

  /** Next and previous undo each other. */
  lemma PrevUndoesNext(i: nat, len: nat)
    requires i < len
    ensures PrevIndex(NextIndex(i, len), len) == i
    ensures NextIndex(PrevIndex(i, len), len) == i
  {
  }

  // ---------------------------------------------------------------------------
  // Star rating

  /** The five stars of a testimonial, `true` where the star is filled (`index < rating`). */
  function Stars(rating: int): (stars: seq<bool>)
    ensures |stars| == 5
    ensures forall k :: 0 <= k < 5 ==> (stars[k] <==> k < rating)
  {
    seq(5, k => k < rating)
  }

  /** A rating of `n` fills its first `n` stars, between none and all five. */
  lemma FilledStarsAreRating(rating: int)
    ensures CountTrue(Stars(rating)) == if rating < 0 then 0 else if rating > 5 then 5 else rating
  {
    StarsFromCount(Stars(rating), 0, rating);
  }

  lemma {:induction false} StarsFromCount(stars: seq<bool>, from: int, rating: int)
    requires forall k :: 0 <= k < |stars| ==> (stars[k] <==> from + k < rating)
    ensures CountTrue(stars) == Clamp(rating - from, |stars|)
    decreases |stars|
  {
    if stars != [] {
      StarsFromCount(stars[1..], from + 1, rating);
    }
  }

  function Clamp(n: int, bound: nat): nat {
    if n < 0 then 0 else if n > bound then bound else n
  }

  /** The ratings shown: five stars, five, four, five. */
  lemma ListedRatings()
    ensures Count == 4
    ensures CountTrue(Stars(TestimonialList[0].rating)) == 5
    ensures CountTrue(Stars(TestimonialList[2].rating)) == 4
  {
    FilledStarsAreRating(5);
    FilledStarsAreRating(4);
  }

  // ---------------------------------------------------------------------------
  // The component's state

  class Carousel {
    var activeIndex: nat
    var isAutoplay: bool
    var isTransitioning: bool
    /** The 400 ms callbacks that clear `isTransitioning` and have not run yet. */
    var pendingClears: nat

    /** The index stays in range, and a transition always has a callback coming to end it. */
    ghost predicate Valid()
      reads this
    {
      activeIndex < Count && (isTransitioning ==> pendingClears > 0)
    }

    constructor()
      ensures Valid()
      ensures activeIndex == 0 && isAutoplay && !isTransitioning && pendingClears == 0
    {
      activeIndex := 0;
      isAutoplay := true;
      isTransitioning := false;
      pendingClears := 0;
    }

    /** `goToPrevSlide`: ignored during a transition. */
    method GoToPrevSlide()
      requires Valid()
      modifies this
      ensures Valid() && isAutoplay == old(isAutoplay)
      ensures old(isTransitioning) ==> activeIndex == old(activeIndex) && isTransitioning && pendingClears == old(pendingClears)
      ensures !old(isTransitioning) ==>
                activeIndex == PrevIndex(old(activeIndex), Count) && isTransitioning && pendingClears == old(pendingClears) + 1
    {
      if isTransitioning {
        return;
      }
      isTransitioning := true;
      activeIndex := PrevIndex(activeIndex, Count);
      pendingClears := pendingClears + 1;
    }

    /** `goToNextSlide`: ignored during a transition. */
    method GoToNextSlide()
      requires Valid()
      modifies this
      ensures Valid() && isAutoplay == old(isAutoplay)
      ensures old(isTransitioning) ==> activeIndex == old(activeIndex) && isTransitioning && pendingClears == old(pendingClears)
      ensures !old(isTransitioning) ==>
                activeIndex == NextIndex(old(activeIndex), Count) && isTransitioning && pendingClears == old(pendingClears) + 1
    {
      if isTransitioning {
        return;
      }
      isTransitioning := true;
      activeIndex := NextIndex(activeIndex, Count);
      pendingClears := pendingClears + 1;
    }

    /** An indicator button: jumps to `index` whether or not a transition is under way. */
    method SelectIndicator(index: nat)
      requires Valid() && index < Count
      modifies this
      ensures Valid() && activeIndex == index && isTransitioning && isAutoplay == old(isAutoplay)
      ensures pendingClears == old(pendingClears) + 1
    {
      isTransitioning := true;
      activeIndex := index;
      pendingClears := pendingClears + 1;
    }

    /** One of the 400 ms callbacks runs. */
    method EndTransition()
      requires Valid() && pendingClears > 0
      modifies this
      ensures Valid() && !isTransitioning && pendingClears == old(pendingClears) - 1
      ensures activeIndex == old(activeIndex) && isAutoplay == old(isAutoplay)
    {
      isTransitioning := false;
      pendingClears := pendingClears - 1;
    }

    /** `onMouseEnter`. */
    method PauseAutoplay()
      requires Valid()
      modifies this
      ensures Valid() && !isAutoplay
      ensures activeIndex == old(activeIndex) && isTransitioning == old(isTransitioning) && pendingClears == old(pendingClears)
    {
      isAutoplay := false;
    }

    /** `onMouseLeave`. */
    method ResumeAutoplay()
      requires Valid()
      modifies this
      ensures Valid() && isAutoplay
      ensures activeIndex == old(activeIndex) && isTransitioning == old(isTransitioning) && pendingClears == old(pendingClears)
    {
      isAutoplay := true;
    }

    /** The 5 s interval: it only exists, and so only advances, while autoplay is on. */
    method AutoplayTick()
      requires Valid()
      modifies this
      ensures Valid() && isAutoplay == old(isAutoplay)
      ensures !old(isAutoplay) || old(isTransitioning) ==>
                activeIndex == old(activeIndex) && isTransitioning == old(isTransitioning) && pendingClears == old(pendingClears)
      ensures old(isAutoplay) && !old(isTransitioning) ==>
                activeIndex == NextIndex(old(activeIndex), Count) && isTransitioning && pendingClears == old(pendingClears) + 1
    {
      if isAutoplay {
        GoToNextSlide();
      }
    }
  }

  /**
   * Next, then the transition's callback, then previous: the carousel shows
   * the testimonial it started from.
   */
  method NextThenPrev(start: nat) returns (shown: nat, transitioning: bool)
    requires start < Count
    ensures shown == start && transitioning
  {
    var c := new Carousel();
    c.SelectIndicator(start);
    c.EndTransition();
    c.GoToNextSlide();
    c.EndTransition();
    c.GoToPrevSlide();
    PrevUndoesNext(start, Count);
    shown, transitioning := c.activeIndex, c.isTransitioning;
  }

  /**
   * A second arrow press before the 400 ms callback has run is ignored, so
   * two quick presses of "next" move one testimonial only.
   */
  method DoubleNextMovesOnce(start: nat) returns (shown: nat)
    requires start < Count
    ensures shown == NextIndex(start, Count)
  {
    var c := new Carousel();
    c.SelectIndicator(start);
    c.EndTransition();
    c.GoToNextSlide();
    c.GoToNextSlide();
    shown := c.activeIndex;
  }

  /** While the pointer rests on the carousel, autoplay ticks leave it where it is. */
  method PausedAutoplayHolds(start: nat) returns (shown: nat)
    requires start < Count
    ensures shown == start
  {
    var c := new Carousel();
    c.SelectIndicator(start);
    c.EndTransition();
    c.PauseAutoplay();
    c.AutoplayTick();
    c.AutoplayTick();
    shown := c.activeIndex;
  }
}

=== FILE: wrappers.dfy ===
/** Optional values, standing for the TypeScript `T | undefined` results of the source. */
module Wrappers {

  datatype Option<+T> = None | Some(value: T)
}
